=== FILE: README.md ===
# PhotoSwipe review engine in Dafny

A model of the photo review engine of the PhotoSwipe iOS app and proofs about it. The app shows
one photo at a time. The user swipes right to keep it or left to queue it for deletion. Queued
photos can be undone or restored, and the deletions are later committed as one batch.

The model is functional. Each piece of state is an immutable datatype, and each operation is a
pure function from one state to the next:

- `PhotoModels` (photo_model.dfy) is the photo record: an id plus its library asset. The app's
  `==` on photos compares ids only; in the model that comparison is `SamePhoto`, while Dafny's
  own `==` on the datatype compares id and asset. The two agree on the records the app builds:
  the repository wraps each asset under its own identifier (`WellFormed`), so two well-formed
  records with the same id wrap assets with the same identifier. Contracts that test list membership with `in` (the `q in r.photos`
  clauses, the `p in e.photos` precondition of `ReviewPartition.MarkPreserves`, the
  `p in e.allPhotos` precondition of `ReviewPartition.MoveToFrontPreserves`) therefore use the
  structural comparison where the app would use its id comparison. The photo library hands
  out one asset per identifier, so for the records the app builds the two comparisons give the
  same answer. The operations themselves compare and remove by id, as the app does.
- `SwipeActions` (swipe_action.dfy) is the keep/delete decision with its colour and icon.
- `AppConstants` (constants.dfy) holds the swipe threshold, exit offset, maximum rotation,
  rotation divisor and thumbnail preload count.
- `DeleteQueues` (delete_queue.dfy) is the ordered delete queue of assets.
- `ImageCaches` (image_cache.dfy) is the two-tier cache: a full-size map and a thumbnail map,
  both keyed by photo id.
- `ReviewEngine` (review_engine.dfy) is the content view model. It holds:
  - the review stack;
  - the master photo list;
  - the kept set and its published counter;
  - the delete queue and the cache;
  - the error message.

  It covers every decision, the loading operations, the queries and the batch commit.
- `ReviewPartition` (review_partition.dfy) is the central invariant. Every photo of the master
  list is in exactly one of three places: the stack, the kept set or the queue. The kept
  counter equals the kept set's size. Each operation preserves this when called the way the
  views call it:
  - keep and mark act on the top card;
  - restore acts on a queued photo;
  - jump acts on a photo of the master list.
- `CardStack` (card_stack.dfy) is the swipe coordinator. It covers:
  - drag tracking;
  - the threshold decision on release;
  - the delayed completion of an accepted swipe;
  - the view's image and thumbnail maps, filled through the engine.
- `ReviewLaws` (review_laws.dfy) relates several operations. It covers:
  - idempotence of keep;
  - mark-then-undo, and mark-then-restore being the same as keep;
  - the stale counter;
  - top-card swipes;
  - mirror symmetry of the swipe rule;
  - read-through loads;
  - commit retry;
  - the worked scenarios.
- `Seqs` (seqs.dfy) holds the order-preserving filter (Swift's `removeAll(where:)` and
  `filter`), key sets and uniqueness by key. `Wrappers` (wrappers.dfy) holds `Option` and
  `Outcome`.

External effects become parameters:

- The photo list fetched from the library is a `seq<Photo>`.
- The image loader is a function `Photo -> Option<Image>`.
- The answer of the asset store to the batch delete is an `Outcome<string>`: `Pass`, or `Fail`
  with the error's description.

The delayed completion of a swipe, a timer that fires after the exit animation, is split in
two. `HandleSwipeEnd` moves the card off screen and returns a `PendingExit` token. `ResolveExit`
is what the timer later runs with that token.

Where the code's behaviour is easy to misread, the model follows the code:

- `remove(byId:)` removes every queue entry with the id, not only the first
  (PhotoSwipe/Services/DeleteQueueManager.swift:27).
- `photosMarkedForDeletion` lists photos in master-list order, not queue order
  (PhotoSwipe/ViewModels/ContentViewModel.swift:35-38).
- Keeping or marking a photo evicts only its full-size cache entry. The thumbnail stays
  (PhotoSwipe/ViewModels/ContentViewModel.swift:131-134).
- The cache has no "remove from both tiers" operation. The batch commit removes each tier in
  turn.
- `markForDeletion` appends even when the asset is already queued. It also leaves the kept
  counter as it was (PhotoSwipe/ViewModels/ContentViewModel.swift:104-108). A kept photo that is
  marked is therefore counted twice by `totalReviewed`: see
  `ReviewLaws.MarkKeptLeavesCounterStale`. When keep and mark are applied to the top card one
  at a time, that card is never kept yet and the partition invariant holds
  (`ReviewPartition.MarkPreserves`). It does not hold across an accepted delete swipe whose
  timer has not fired: the keep button (PhotoSwipe/ContentView.swift:164-167) still sees the
  same top card, keeps it, and the timer then marks the kept photo. The counter ends one above
  the kept set's size: see `ReviewLaws.KeepDuringPendingDelete`.
- A swipe is accepted only when it travels strictly more than the threshold. A drag of exactly
  100 points springs back.

## Model

| member | source | states |
|---|---|---|
| `PhotoModels.SamePhoto` | PhotoSwipe/Models/PhotoModel.swift:16-18 | the photo equality the app uses: two records are the same photo exactly when their ids agree (partners: `PhotoModels.SamePhotoIgnoresAsset`, `PhotoModels.SamePhotoIsEquivalence`, `PhotoModels.WithoutIdIsWithoutEqual`) |
| `PhotoModels.SamePhotoIgnoresAsset` | PhotoSwipe/Models/PhotoModel.swift:16-18 | two records with the same id are equal whatever assets they wrap |
| `PhotoModels.SamePhotoIsEquivalence` | PhotoSwipe/Models/PhotoModel.swift:16-18 | photo equality holds exactly when the ids agree and is reflexive, symmetric and transitive |
| `PhotoModels.WithoutIdIsWithoutEqual` | PhotoSwipe/ViewModels/ContentViewModel.swift:133 | removing a photo's id from the stack removes exactly the entries equal to it under `==` |
| `PhotoModels.FromAsset` | PhotoSwipe/ViewModels/ContentViewModel.swift:138 | the record rebuilt on undo carries the asset and has the asset's identifier as its id |
| `PhotoModels.RebuildFromAsset` | PhotoSwipe/ViewModels/ContentViewModel.swift:138 | rebuilding a record from its own asset gives the record back exactly when it is well formed |
| `PhotoModels.WithoutIds` | PhotoSwipe/ViewModels/ContentViewModel.swift:133 | removal by id keeps exactly the photos whose id is outside the set; their ids are the old ids minus the set, and nothing changes when no id matches |
| `PhotoModels.WithoutIdsConcat` | PhotoSwipe/ViewModels/ContentViewModel.swift:133 | removal by id keeps the survivors in their original relative order |
| `PhotoModels.WithoutIdsKeepsUnique` | PhotoSwipe/ViewModels/ContentViewModel.swift:151-152 | removal by id never introduces a repeated id |
| `PhotoModels.UniqueIdsHead` | PhotoSwipe/ViewModels/ContentViewModel.swift:133 | in a stack without repeated ids, removing the top card's id leaves exactly the rest of the stack |
| `SwipeActions.SwipeAction.Color` | PhotoSwipe/Models/SwipeAction.swift:7-12 | keep is green and delete is red, and no other pairing holds |
| `SwipeActions.SwipeAction.Icon` | PhotoSwipe/Models/SwipeAction.swift:14-19 | keep shows a heart and delete a bin, and no other pairing holds |
| `SwipeActions.PresentationDistinguishes` | PhotoSwipe/Models/SwipeAction.swift:7-19 | two actions share a colour, or an icon, only when they are the same action |
| `DeleteQueues.DeleteQueue.IsEmpty` | PhotoSwipe/Services/DeleteQueueManager.swift:19-20 | the queue is empty exactly when its count is zero |
| `DeleteQueues.DeleteQueue.Count` | PhotoSwipe/Services/DeleteQueueManager.swift:19 | the count is zero exactly for the empty queue (partner: `DeleteQueues.CountMatchesIds`) |
| `DeleteQueues.CountMatchesIds` | PhotoSwipe/Services/DeleteQueueManager.swift:19-24 | the count is never below the number of queued ids and equals it exactly when no id is queued twice; `add` does not deduplicate, so the two can differ |
| `DeleteQueues.DeleteQueue.Add` | PhotoSwipe/Services/DeleteQueueManager.swift:22-24 | the asset is appended at the tail, the old queue is the prefix, the count grows by one and the id set gains the id |
| `DeleteQueues.DeleteQueue.RemoveById` | PhotoSwipe/Services/DeleteQueueManager.swift:26-28 | every entry with the id goes and every other entry stays; the count drops when the id was present, and the queue is unchanged when it was absent |
| `DeleteQueues.AddThenRemoveById` | PhotoSwipe/Services/DeleteQueueManager.swift:22-28 | removing an id right after adding an asset of that id gives the same queue as removing it without the add |
| `DeleteQueues.DeleteQueue.Contains` | PhotoSwipe/Services/DeleteQueueManager.swift:30-32 | true exactly when some position holds an asset with the id |
| `DeleteQueues.DeleteQueue.RemoveLast` | PhotoSwipe/Services/DeleteQueueManager.swift:34-37 | an empty queue yields nil and stays as it is; otherwise the last asset is returned and the rest plus that asset is the old queue |
| `DeleteQueues.DeleteQueue.Clear` | PhotoSwipe/Services/DeleteQueueManager.swift:39-41 | the queue is empty afterwards |
| `DeleteQueues.ContainsMeansQueued` | PhotoSwipe/Services/DeleteQueueManager.swift:30-32 | the linear scan agrees with membership in the queue's id set |
| `DeleteQueues.AddThenRemoveLast` | PhotoSwipe/Services/DeleteQueueManager.swift:22-37 | popping right after an add returns that asset and restores the queue |
| `DeleteQueues.RemoveLastThenAdd` | PhotoSwipe/Services/DeleteQueueManager.swift:22-37 | re-adding the asset just popped restores the queue |
| `DeleteQueues.RemoveByIdConcat` | PhotoSwipe/Services/DeleteQueueManager.swift:26-28 | removal by id keeps the relative order of the surviving assets |
| `DeleteQueues.RemoveByIdIdempotent` | PhotoSwipe/Services/DeleteQueueManager.swift:26-28 | removing an id twice is the same as removing it once |
| `DeleteQueues.UniquePopLeavesIdAbsent` | PhotoSwipe/Services/DeleteQueueManager.swift:34-37 | in a queue without repeated ids, the popped id is not in the rest, which keeps unique ids |
| `ImageCaches.ImageCache.GetImage` | PhotoSwipe/Services/ImageCacheService.swift:19-23 | a full-size lookup hits exactly when the id is stored and then returns the stored image |
| `ImageCaches.ImageCache.GetThumbnail` | PhotoSwipe/Services/ImageCacheService.swift:25-29 | a thumbnail lookup hits exactly when the id is stored and then returns the stored image |
| `ImageCaches.ImageCache.CacheImage` | PhotoSwipe/Services/ImageCacheService.swift:31-35 | the full-size lookup for the id returns the new image, other ids and the thumbnail tier are unchanged |
| `ImageCaches.ImageCache.CacheThumbnail` | PhotoSwipe/Services/ImageCacheService.swift:37-41 | the thumbnail lookup for the id returns the new image, other ids and the full-size tier are unchanged |
| `ImageCaches.ImageCache.RemoveImage` | PhotoSwipe/Services/ImageCacheService.swift:43-47 | the full-size lookup for the id misses afterwards, the thumbnail tier and other ids are unchanged, a miss is a no-op |
| `ImageCaches.ImageCache.RemoveThumbnail` | PhotoSwipe/Services/ImageCacheService.swift:49-53 | the thumbnail lookup for the id misses afterwards, the full-size tier and other ids are unchanged, a miss is a no-op |
| `ImageCaches.ImageCache.ClearAll` | PhotoSwipe/Services/ImageCacheService.swift:55-60 | every lookup in either tier misses afterwards |
| `ImageCaches.EmptyMisses` | PhotoSwipe/Services/ImageCacheService.swift:15-16 | a fresh cache misses every id in both tiers |
| `ImageCaches.CacheImageOverwrites` | PhotoSwipe/Services/ImageCacheService.swift:31-35 | a second store for the same id wins |
| `ImageCaches.TiersIndependent` | PhotoSwipe/Services/ImageCacheService.swift:31-47 | storing or evicting an entry of any id in one tier leaves every lookup of any id in the other tier unchanged; in particular a thumbnail survives the eviction of its id's full-size image |
| `ReviewEngine.HasPhotosToDelete` | PhotoSwipe/ViewModels/ContentViewModel.swift:23 | true exactly when the queue count is positive |
| `ReviewEngine.PhotosToDeleteCount` | PhotoSwipe/ViewModels/ContentViewModel.swift:22 | the count is the number of queue entries, and the number of queued ids when none repeats |
| `ReviewEngine.TotalReviewed` | PhotoSwipe/ViewModels/ContentViewModel.swift:24 | with a fresh counter, no id queued twice and no id both kept and queued, the total is the number of decided ids (partner: `ReviewPartition.ReviewedPlusRemaining`) |
| `ReviewEngine.DecisionFor` | PhotoSwipe/ViewModels/ContentViewModel.swift:29-33 | keep exactly for kept ids; delete exactly for queued ids that are not kept; nothing for the rest |
| `ReviewEngine.PhotosMarkedForDeletion` | PhotoSwipe/ViewModels/ContentViewModel.swift:35-38 | the listed photos are exactly the master-list photos whose id is queued, and the list is no longer than the master list (order: `ReviewEngine.PhotosMarkedInMasterOrder`) |
| `ReviewEngine.PhotosMarkedInMasterOrder` | PhotoSwipe/ViewModels/ContentViewModel.swift:35-38 | the list follows the master list's order, whatever the queue's order: the listing of a master list cut in two is the two listings joined, and a one-photo master list lists the photo exactly when its id is queued |
| `ReviewEngine.RestorePhoto` | PhotoSwipe/ViewModels/ContentViewModel.swift:40-44 | the queue equals `RemoveById(p.id)` of the old queue, which keeps the surviving entries in order and so decides what undo pops next (unchanged when the id was not queued); the id becomes kept with the counter equal to the kept set's size, and the stack, master list and cache are untouched |
| `ReviewEngine.LoadPhotos` | PhotoSwipe/ViewModels/ContentViewModel.swift:72-78 | the fetched list becomes both the stack and the master list and nothing else changes |
| `ReviewEngine.LoadImage` | PhotoSwipe/ViewModels/ContentViewModel.swift:80-90 | a cache hit is returned without asking the loader; a miss returns the loader's answer and caches it when it is an image |
| `ReviewEngine.LoadThumbnail` | PhotoSwipe/ViewModels/ContentViewModel.swift:92-102 | the same read-through rule on the thumbnail tier |
| `ReviewEngine.MarkForDeletion` | PhotoSwipe/ViewModels/ContentViewModel.swift:104-108 | the queue equals the old queue with the asset appended (popping gives it back with the old queue); the id leaves the kept set but the counter stays; the stack equals `WithoutIds(e.photos, {p.id})`, the old stack without the id, in order; only the full-size entry is evicted |
| `ReviewEngine.KeepPhoto` | PhotoSwipe/ViewModels/ContentViewModel.swift:110-115 | the id joins the kept set with the counter equal to its size; the queue equals `RemoveById(p.id)` of the old queue, in order (unchanged when the id was not queued); the stack equals `WithoutIds(e.photos, {p.id})`, the old stack without the id, in order; only the full-size entry is evicted |
| `ReviewEngine.IndexOfId` | PhotoSwipe/ViewModels/ContentViewModel.swift:118 | returns the first stack position holding the id, and nil exactly when no position does |
| `ReviewEngine.MoveToFront` | PhotoSwipe/ViewModels/ContentViewModel.swift:117-129 | a photo already on top leaves the engine unchanged; a stacked photo turns the stack cyclically so that it comes first, keeping the same photos; an unstacked photo leaves the kept set, the queue becomes `RemoveById(p.id)` of the old queue, in order (unchanged when the id was not queued), and the photo is pushed on top; the top id is always the photo's |
| `ReviewEngine.Rotate` | PhotoSwipe/ViewModels/ContentViewModel.swift:120-122 | the rotated stack holds, at each position, the photo that many places after the tapped one, wrapping round, and has the same photos |
| `ReviewEngine.RemoveFromStack` | PhotoSwipe/ViewModels/ContentViewModel.swift:131-134 | the stack is the old stack without the id, in order; only the full-size entry for the id is evicted |
| `ReviewEngine.UndoLastDelete` | PhotoSwipe/ViewModels/ContentViewModel.swift:136-140 | an empty queue changes nothing; otherwise the last queued asset is rebuilt as a photo on top of the stack, and the queue loses exactly that tail entry |
| `ReviewEngine.EvictDeleted` | PhotoSwipe/ViewModels/ContentViewModel.swift:154-158 | after the loop no deleted id is kept or cached in either tier, and everything else is as before |
| `ReviewEngine.ExecuteDeletes` | PhotoSwipe/ViewModels/ContentViewModel.swift:142-165 | empty queue: no change. Failure: only the error message changes, to the fixed prefix plus the description. Success: the queue empties; the master list and the stack become their old contents without the queued ids, in order; the kept set and both cache tiers lose the queued ids; the counter is refreshed; the error clears |
| `ReviewEngine.Reset` | PhotoSwipe/ViewModels/ContentViewModel.swift:167-174 | the queue, kept set, counter and both cache tiers are emptied and the fetched list becomes the stack and the master list |
| `ReviewPartition.DecisionReportsStatus` | PhotoSwipe/ViewModels/ContentViewModel.swift:29-33 | in a consistent engine, a master-list photo has exactly one status and the published decision reports it |
| `ReviewPartition.ReviewedPlusRemaining` | PhotoSwipe/ViewModels/ContentViewModel.swift:24 | in a consistent engine, reviewed plus remaining photos add up to the master list |
| `ReviewPartition.InitialConsistent` | PhotoSwipe/ViewModels/ContentViewModel.swift:7-15 | a fresh view model satisfies the partition invariant |
| `ReviewPartition.LoadPhotosConsistent` | PhotoSwipe/ViewModels/ContentViewModel.swift:72-78 | loading a list without repeated ids into an undecided engine gives a consistent engine |
| `ReviewPartition.ResetConsistent` | PhotoSwipe/ViewModels/ContentViewModel.swift:167-174 | reset always ends consistent, whatever state it starts from |
| `ReviewPartition.KeepPreserves` | PhotoSwipe/ViewModels/ContentViewModel.swift:110-115 | keeping a master-list photo preserves the partition and makes the photo kept |
| `ReviewPartition.MarkPreserves` | PhotoSwipe/ViewModels/ContentViewModel.swift:104-108 | marking a stacked photo preserves the partition, including the counter, and makes the photo queued |
| `ReviewPartition.UndoPreserves` | PhotoSwipe/ViewModels/ContentViewModel.swift:136-140 | undo preserves the partition and makes the undone photo unreviewed |
| `ReviewPartition.RestorePreserves` | PhotoSwipe/ViewModels/ContentViewModel.swift:40-44 | restoring a queued photo preserves the partition and makes the photo kept |
| `ReviewPartition.MoveToFrontPreserves` | PhotoSwipe/ViewModels/ContentViewModel.swift:117-129 | bringing a master-list photo to the front preserves the partition and makes the photo unreviewed |
| `ReviewPartition.ExecuteDeletesPreserves` | PhotoSwipe/ViewModels/ContentViewModel.swift:142-165 | the batch commit preserves the partition whatever the store answers |
| `ReviewPartition.LoadsPreserve` | PhotoSwipe/ViewModels/ContentViewModel.swift:80-102 | image and thumbnail loads preserve the partition |
| `CardStack.HandleSwipeChange` | PhotoSwipe/ViewModels/CardStackViewModel.swift:22-25 | the card follows the translation and its rotation times twenty is the horizontal travel; the loaded maps stay |
| `CardStack.ResetPosition` | PhotoSwipe/ViewModels/CardStackViewModel.swift:67-70 | the card is back at rest and the loaded maps stay |
| `CardStack.ExitPose` | PhotoSwipe/ViewModels/CardStackViewModel.swift:37-54 | an exiting card is 500 points off screen on the side of its decision, at the matching tilt of 15 degrees |
| `CardStack.HandleSwipeEnd` | PhotoSwipe/ViewModels/CardStackViewModel.swift:27-35 | a decision is pending exactly when the drag is strictly past the threshold: keep to the right, delete to the left. A pending card is in its exit pose; otherwise the card is reset and nothing is pending |
| `CardStack.ResolveExit` | PhotoSwipe/ViewModels/CardStackViewModel.swift:43-65 | the engine keeps or marks the photo as the token says, and then reports that decision for it; the card's full-size image goes and the card is at rest |
| `CardStack.JumpToPhoto` | PhotoSwipe/ViewModels/CardStackViewModel.swift:72-74 | the photo ends on top; from a consistent engine the result is consistent and the photo is undecided |
| `CardStack.LoadImageIfNeeded` | PhotoSwipe/ViewModels/CardStackViewModel.swift:76-87 | nothing happens when the card holds the id; otherwise the card gains the id exactly when the engine has or loads an image, and stores the cached image on a hit or exactly the loader's image on a miss, which then matches the engine's cache; other card entries stay, and the engine's full-size tier gains no key but the photo's id |
| `CardStack.LoadThumbnailIfNeeded` | PhotoSwipe/ViewModels/CardStackViewModel.swift:89-94 | the same guard and read-through on the thumbnail map: the card stores the cached thumbnail on a hit or exactly the loader's thumbnail on a miss, and the engine's thumbnail tier gains no key but the photo's id |
| `CardStack.LoadThumbnailsForVisibleRange` | PhotoSwipe/ViewModels/CardStackViewModel.swift:96-106 | within the first min(20, count) photos, every photo the engine can serve gets a thumbnail. A new entry appears only for an id in that range. Held entries never change. New entries match the engine's cache, and a new entry for an id the engine had not cached is exactly what the loader returned for an in-range photo with that id. The engine changes only in its thumbnail tier and gains keys only for ids the view now holds |
| `ReviewLaws.KeepIdempotent` | PhotoSwipe/ViewModels/ContentViewModel.swift:110-115 | keeping a photo twice is the same as keeping it once, so the counter does not double |
| `ReviewLaws.DecideTopRemovesHead` | PhotoSwipe/ViewModels/ContentViewModel.swift:104-115 | keeping or marking the top card of a stack without repeated ids leaves exactly the rest of the stack |
| `ReviewLaws.MarkThenUndo` | PhotoSwipe/ViewModels/ContentViewModel.swift:136-140 | marking the undecided top card and undoing restores the engine, except the evicted full-size entry |
| `ReviewLaws.TopIsUndecided` | PhotoSwipe/ViewModels/ContentViewModel.swift:104-115 | in a consistent engine the top card is neither kept nor queued |
| `ReviewLaws.MarkThenRestoreIsKeep` | PhotoSwipe/ViewModels/ContentViewModel.swift:40-44 | marking a photo and restoring it has the same effect as keeping it, whether or not the photo was already queued |
| `ReviewLaws.UndoOnEmptyQueue` | PhotoSwipe/ViewModels/ContentViewModel.swift:136-137 | undo with nothing queued changes nothing |
| `ReviewLaws.MarkKeptLeavesCounterStale` | PhotoSwipe/ViewModels/ContentViewModel.swift:104-108 | marking a kept photo while the counter matches the kept set leaves the counter one above the kept set's size, and total reviewed grows by one |
| `ReviewLaws.KeepDuringPendingDelete` | PhotoSwipe/ViewModels/CardStackViewModel.swift:51-61 | in a consistent engine, keeping the top card while its accepted delete swipe waits for the timer, then firing the timer, leaves the photo queued, the counter one above the kept set, total reviewed up by two, and the engine no longer consistent |
| `ReviewLaws.MarkTwiceQueuesTwice` | PhotoSwipe/ViewModels/ContentViewModel.swift:105 | marking the same photo twice queues its asset twice |
| `ReviewLaws.SwipeTopCard` | PhotoSwipe/ViewModels/CardStackViewModel.swift:27-61 | an accepted swipe of the top card of a consistent engine removes exactly that card, records the decision, keeps the partition and leaves the card at rest |
| `ReviewLaws.ShortDragSpringsBack` | PhotoSwipe/ViewModels/CardStackViewModel.swift:22-35 | dragging then releasing within the threshold returns the card to rest with nothing pending |
| `ReviewLaws.SwipeEndMirror` | PhotoSwipe/ViewModels/CardStackViewModel.swift:27-61 | mirroring a drag flips the decision and reflects the exit offset and tilt |
| `ReviewLaws.LoadImageStable` | PhotoSwipe/ViewModels/ContentViewModel.swift:80-90 | once a load produced an image, loading again returns that image and leaves the engine as it was, whatever the library answers the second time; a load that produced nothing left the engine untouched, so the next load is a fresh request |
| `ReviewLaws.LoadThumbnailStable` | PhotoSwipe/ViewModels/ContentViewModel.swift:92-102 | the same for thumbnails |
| `ReviewLaws.LoadImageIfNeededIdempotent` | PhotoSwipe/ViewModels/CardStackViewModel.swift:76-87 | once the card holds the image, asking again changes nothing whatever the library answers; if the first request left the card without it, card and engine are as they were and the next request behaves as a first one |
| `ReviewLaws.RetryAfterFailure` | PhotoSwipe/ViewModels/ContentViewModel.swift:142-165 | a failed commit followed by a successful one ends where an immediate success would |
| `ReviewLaws.CommitThenCommit` | PhotoSwipe/ViewModels/ContentViewModel.swift:143 | after a successful commit, committing again changes nothing |
| `ReviewLaws.ThreePhotoScenario` | PhotoSwipe/ViewModels/ContentViewModel.swift:104-140 | load p1, p2, p3; delete p1; keep p2; undo. This leaves p1 on top of p3 with an empty queue, p2 kept, and one photo reviewed |
| `ReviewLaws.MarkedListFollowsMasterOrder` | PhotoSwipe/ViewModels/ContentViewModel.swift:35-38 | with the queue holding p3 then p1, the review list is p1, p3 |
| `ReviewLaws.CommitScenario` | PhotoSwipe/ViewModels/ContentViewModel.swift:142-165 | committing p1 and p3 successfully leaves only p2 and evicts both tiers for p1 and p3 |
| `ReviewLaws.JumpScenario` | PhotoSwipe/ViewModels/ContentViewModel.swift:117-129 | jumping to c in a, b, c, d gives c, d, a, b |

## Left out

- The SwiftUI views are presentation: layout, animation curves, particle effects and the
  confirmation dialog flag `showingDeleteConfirmation`.
- The photo repository and the authorization service wrap the platform photo library. The
  fetched list, the loader and the delete outcome are parameters instead. The authorization
  flow and `authorizationStatus` only forward an OS status into `loadPhotos`.
- `isLoading` is only set around the fetch and is not modelled.
- The cache lock and `async`/`await` are concurrency. The engine runs on the main actor, and
  the model is sequential: interleavings of in-flight loads are not modelled.
- The animation delay and the `[weak self]` captures are left out. The delay is the explicit
  `PendingExit` token. A coordinator or engine that has been deallocated, where the weak
  reference is nil and the call is skipped, is not modelled.
- `CardStack.ResolveExit`: does not model the case where the engine reference is nil and the
  decision is dropped, because the model always has an engine.
- `CardStack.LoadImageIfNeeded`: the target size derived from the screen is not modelled,
  because the loader is an opaque function of the photo.
- `CardStack.HandleSwipeChange`: offsets and rotation are exact reals, not `CGFloat`/`Double`,
  so floating-point rounding is not modelled.
- `ReviewEngine.ExecuteDeletes`: the eviction loop is given as set differences; the loop itself
  is `ReviewEngine.EvictDeleted`, whose contract states the same result.
- `ReviewLaws.MarkThenUndo`: requires the top card to be undecided rather than the whole
  invariant; `ReviewLaws.TopIsUndecided` shows that a consistent engine meets it.
- The card layout constants (stack count, scale step, vertical offset), the animation duration
  and the thumbnail pixel sizes are presentation and do not enter any decision.
- Images and assets are opaque values. Asset identity is the string local identifier.
- PhotoModel.swift's `creationDate` and `location` are read-through accessors that the core
  never calls; the two fields stay on `Asset` and no accessor is modelled.

=== FILE: card_stack.dfy ===
/**
 * The card stack coordinator (CardStackViewModel.swift): the drag state of the top card, the
 * swipe decision taken when the finger lifts, and the per-view image and thumbnail maps it
 * fills from the review engine.
 *
 * The delayed completion of an accepted swipe (a timer firing after the exit animation) is
 * split in two: `HandleSwipeEnd` animates the card out and hands back a `PendingExit` token,
 * and `ResolveExit` is what the timer runs later with that token.
 */
module CardStack {
  import opened Wrappers
  import opened PhotoModels
  import opened SwipeActions
  import opened ImageCaches
  import opened ReviewEngine
  import opened AppConstants
  import ReviewPartition
  import Seqs

  /** A drag translation or card offset, in points. */
  datatype Size = Size(width: real, height: real)

  const ZeroSize := Size(0.0, 0.0)

  datatype CardState = CardState(
    offset: Size,
    rotation: real,                         // degrees
    loadedImages: map<string, Image>,       // full-size images held by the view, by photo id
    loadedThumbnails: map<string, Image>)   // film-strip thumbnails held by the view, by photo id
  {
    /** The card sits in its resting place. */
    predicate AtRest() {
      offset == ZeroSize && rotation == 0.0
    }
  }

  /** A decision whose completion is waiting for the exit animation to finish. */
  datatype PendingExit = PendingExit(action: SwipeAction, photo: Photo)

  /** What releasing the card yields: the animated card, and the decision to complete later. */
  datatype Release = Release(card: CardState, pending: Option<PendingExit>)

  /** A coordinator step that also goes through the engine. */
  datatype Step = Step(card: CardState, engine: Engine)

  /** Every entry of `a` is still in `b` with the same value. */
  ghost predicate Extends(b: map<string, Image>, a: map<string, Image>) {
    forall k :: k in a ==> k in b && b[k] == a[k]
  }

  /** The engine `r` is `e` with only its thumbnail tier changed. */
  ghost predicate OnlyThumbnailsChanged(r: Engine, e: Engine) {
    r == e.(cache := ImageCache(e.cache.images, r.cache.thumbnails))
  }

  /** The engine `r` is `e` with only its full-size tier changed. */
  ghost predicate OnlyImagesChanged(r: Engine, e: Engine) {
    r == e.(cache := ImageCache(r.cache.images, e.cache.thumbnails))
  }

  // ---------------------------------------------------------------- dragging

  /** `handleSwipeChange(_:)`: the card follows the finger and tilts by one degree per
      twenty points of horizontal travel. */
  function HandleSwipeChange(c: CardState, translation: Size): (r: CardState)
    ensures r.offset == translation
    ensures r.rotation * RotationDivisor == translation.width
    ensures r.loadedImages == c.loadedImages && r.loadedThumbnails == c.loadedThumbnails
  {
    c.(offset := translation, rotation := translation.width / RotationDivisor)
  }

  /** `resetPosition()`: the card goes back to rest; the loaded maps stay. */
  function ResetPosition(c: CardState): (r: CardState)
    ensures r.AtRest()
    ensures r.loadedImages == c.loadedImages && r.loadedThumbnails == c.loadedThumbnails
  {
    c.(offset := ZeroSize, rotation := 0.0)
  }

  /** Where the exit animation of a decision leaves the card: off the right edge tilted
      clockwise for a keep, off the left edge tilted anticlockwise for a delete. */
  function ExitPose(c: CardState, action: SwipeAction): (r: CardState)
    ensures r.offset.height == 0.0
    ensures action == Keep <==> r.offset.width > 0.0
    ensures r.offset.width == OffscreenOffset || r.offset.width == -OffscreenOffset
    ensures r.rotation * OffscreenOffset == r.offset.width * MaxRotation
    ensures r.loadedImages == c.loadedImages && r.loadedThumbnails == c.loadedThumbnails
  {
    match action
    case Keep => c.(offset := Size(OffscreenOffset, 0.0), rotation := MaxRotation)
    case Delete => c.(offset := Size(-OffscreenOffset, 0.0), rotation := -MaxRotation)
  }

  /** `handleSwipeEnd(_:photo:)` up to the timer: a drag strictly past the threshold to the right
      keeps, strictly past it to the left deletes, anything else springs back. */
  function HandleSwipeEnd(c: CardState, translation: Size, p: Photo): (r: Release)
    ensures r.pending.Some? <==> translation.width > SwipeThreshold || translation.width < -SwipeThreshold
    ensures r.pending.Some? ==> r.pending.value.photo == p && r.card == ExitPose(c, r.pending.value.action)
    ensures r.pending == Some(PendingExit(Keep, p)) <==> translation.width > SwipeThreshold
    ensures r.pending == Some(PendingExit(Delete, p)) <==> translation.width < -SwipeThreshold
    ensures r.pending.None? ==> r.card == ResetPosition(c)
  {
    if translation.width > SwipeThreshold then
      Release(ExitPose(c, Keep), Some(PendingExit(Keep, p)))
    else if translation.width < -SwipeThreshold then
      Release(ExitPose(c, Delete), Some(PendingExit(Delete, p)))
    else
      Release(ResetPosition(c), None)
  }

  /** The timer's completion of an accepted swipe: the engine records the decision, the
      card's full-size image is dropped and the card returns to rest. */
  function ResolveExit(c: CardState, e: Engine, exit: PendingExit): (r: Step)
    ensures exit.action == Keep ==> r.engine == KeepPhoto(e, exit.photo)
    ensures exit.action == Delete ==> r.engine == MarkForDeletion(e, exit.photo)
    ensures WellFormed(exit.photo) ==> DecisionFor(r.engine, exit.photo.id) == Some(exit.action)
    ensures r.card.AtRest()
    ensures exit.photo.id !in r.card.loadedImages
    ensures r.card.loadedImages == c.loadedImages - {exit.photo.id}
    ensures r.card.loadedThumbnails == c.loadedThumbnails
  {
    var engine := if exit.action == Keep then KeepPhoto(e, exit.photo) else MarkForDeletion(e, exit.photo);
    MarkedIsQueued(e, exit.photo);
    assert exit.action == Keep ==> DecisionFor(engine, exit.photo.id) == Some(Keep);
    Step(ResetPosition(c.(loadedImages := c.loadedImages - {exit.photo.id})), engine)
  }

  /** A marked well-formed photo is reported as queued for deletion. */
  lemma MarkedIsQueued(e: Engine, p: Photo)
    ensures WellFormed(p) ==> DecisionFor(MarkForDeletion(e, p), p.id) == Some(Delete)
  {
    var r := MarkForDeletion(e, p);
    RemoveLastHasId(r.deleteQueue, p.asset);
    assert p.id !in r.keptIds;
  }

  /** The id of the asset a pop returns is among the ids of the queue it was popped from. */
  lemma RemoveLastHasId(q: DeleteQueues.DeleteQueue, a: Asset)
    requires q.RemoveLast().last == Some(a)
    ensures a.localIdentifier in q.Ids()
  {
    var rest := q.RemoveLast().rest;
    assert q.queue == rest.queue + [a];
    Seqs.KeySetConcat(rest.queue, [a], AssetIdOf);
    assert a in [a];
  }

  /** `jumpToPhoto(_:)`: the film strip sends the photo to the top of the stack. */
  function JumpToPhoto(e: Engine, target: Photo): (r: Engine)
    ensures |r.photos| > 0 && r.photos[0].id == target.id
    ensures ReviewPartition.Consistent(e) && target in e.allPhotos ==>
              ReviewPartition.Consistent(r) && DecisionFor(r, target.id) == None
  {
    JumpPreserves(e, target);
    MoveToFront(e, target)
  }

  /** Jumping to a photo of the master list keeps the partition and leaves it undecided. */
  lemma JumpPreserves(e: Engine, target: Photo)
    ensures ReviewPartition.Consistent(e) && target in e.allPhotos ==>
              ReviewPartition.Consistent(MoveToFront(e, target))
              && DecisionFor(MoveToFront(e, target), target.id) == None
  {
    if ReviewPartition.Consistent(e) && target in e.allPhotos {
      var r := MoveToFront(e, target);
      ReviewPartition.MoveToFrontPreserves(e, target);
      Seqs.KeySetCovers(r.photos, IdOf);
      assert IdOf(r.photos[0]) in Ids(r.photos);
    }
  }

  // ---------------------------------------------------------------- images

  /** `loadImageIfNeeded(for:)`: asks the engine only when the card holds no image for the id,
      and keeps a non-nil answer. */
  function LoadImageIfNeeded(c: CardState, e: Engine, p: Photo, loader: Photo -> Option<Image>): (r: Step)
    ensures p.id in c.loadedImages ==> r == Step(c, e)
    ensures p.id !in c.loadedImages ==>
              (p.id in r.card.loadedImages <==> p.id in e.cache.images || loader(p).Some?)
    ensures p.id in r.card.loadedImages && p.id !in c.loadedImages ==>
              p.id in r.engine.cache.images && r.card.loadedImages[p.id] == r.engine.cache.images[p.id]
    ensures p.id !in c.loadedImages && p.id in e.cache.images ==>
              r.card.loadedImages[p.id] == e.cache.images[p.id]
    ensures p.id !in c.loadedImages && p.id !in e.cache.images && loader(p).Some? ==>
              r.card.loadedImages[p.id] == loader(p).value
    ensures r.card.loadedImages - {p.id} == c.loadedImages - {p.id}
    ensures r.card == c.(loadedImages := r.card.loadedImages)
    ensures Extends(r.engine.cache.images, e.cache.images) && OnlyImagesChanged(r.engine, e)
    ensures r.engine.cache.images.Keys <= e.cache.images.Keys + {p.id}
  {
    if p.id in c.loadedImages then Step(c, e)
    else
      var loaded := LoadImage(e, p, loader);
      match loaded.image
      case Some(img) => Step(c.(loadedImages := c.loadedImages[p.id := img]), loaded.engine)
      case None => Step(c, loaded.engine)
  }

  /** Whether the engine can produce a thumbnail for the photo: cached, or the loader has one. */
  ghost predicate ThumbnailAvailable(e: Engine, p: Photo, loader: Photo -> Option<Image>) {
    p.id in e.cache.thumbnails || loader(p).Some?
  }

  /** `loadThumbnailIfNeeded(for:)`: the same guard on the thumbnail map. */
  function LoadThumbnailIfNeeded(c: CardState, e: Engine, p: Photo, loader: Photo -> Option<Image>): (r: Step)
    ensures p.id in c.loadedThumbnails ==> r == Step(c, e)
    ensures p.id !in c.loadedThumbnails ==>
              (p.id in r.card.loadedThumbnails <==> ThumbnailAvailable(e, p, loader))
    ensures p.id in r.card.loadedThumbnails && p.id !in c.loadedThumbnails ==>
              p.id in r.engine.cache.thumbnails
              && r.card.loadedThumbnails[p.id] == r.engine.cache.thumbnails[p.id]
    ensures p.id !in c.loadedThumbnails && p.id in e.cache.thumbnails ==>
              r.card.loadedThumbnails[p.id] == e.cache.thumbnails[p.id]
    ensures p.id !in c.loadedThumbnails && p.id !in e.cache.thumbnails && loader(p).Some? ==>
              r.card.loadedThumbnails[p.id] == loader(p).value
    ensures r.card.loadedThumbnails - {p.id} == c.loadedThumbnails - {p.id}
    ensures r.card == c.(loadedThumbnails := r.card.loadedThumbnails)
    ensures Extends(r.engine.cache.thumbnails, e.cache.thumbnails) && OnlyThumbnailsChanged(r.engine, e)
    ensures r.engine.cache.thumbnails.Keys <= e.cache.thumbnails.Keys + {p.id}
    ensures r.engine.cache.thumbnails.Keys <= e.cache.thumbnails.Keys + r.card.loadedThumbnails.Keys
  {
    if p.id in c.loadedThumbnails then Step(c, e)
    else
      var loaded := LoadThumbnail(e, p, loader);
      match loaded.image
      case Some(img) => Step(c.(loadedThumbnails := c.loadedThumbnails[p.id := img]), loaded.engine)
      case None => Step(c, loaded.engine)
  }

  /** `loadThumbnailsForVisibleRange(photos:)`: the first `min(20, |photos|)` photos get their
      thumbnails, each through the guarded single load, in list order. Afterwards a photo of
      that range has a thumbnail when it had one already or the engine could produce one, a
      new entry is there only because some photo of the range with that id could; entries already held never change; nothing outside the range is added; and every
      added entry is the one the engine's cache holds. */
  method LoadThumbnailsForVisibleRange(c: CardState, e: Engine, photos: seq<Photo>, loader: Photo -> Option<Image>)
    returns (c': CardState, e': Engine)
    ensures var n := if |photos| < ThumbnailPreloadCount then |photos| else ThumbnailPreloadCount;
            && (forall j :: 0 <= j < n ==>
                  (photos[j].id in c.loadedThumbnails || ThumbnailAvailable(e, photos[j], loader) ==>
                     photos[j].id in c'.loadedThumbnails))
            && (forall k :: k in c'.loadedThumbnails && k !in c.loadedThumbnails ==>
                  exists j :: 0 <= j < n && photos[j].id == k && ThumbnailAvailable(e, photos[j], loader))
    ensures Extends(c'.loadedThumbnails, c.loadedThumbnails)
    ensures forall k :: k in c'.loadedThumbnails && k !in c.loadedThumbnails ==>
              k in e'.cache.thumbnails && c'.loadedThumbnails[k] == e'.cache.thumbnails[k]
    ensures var n := if |photos| < ThumbnailPreloadCount then |photos| else ThumbnailPreloadCount;
            forall k :: k in c'.loadedThumbnails && k !in c.loadedThumbnails && k !in e.cache.thumbnails ==>
              exists j :: 0 <= j < n && photos[j].id == k && loader(photos[j]) == Some(c'.loadedThumbnails[k])
    ensures c' == c.(loadedThumbnails := c'.loadedThumbnails)
    ensures Extends(e'.cache.thumbnails, e.cache.thumbnails) && OnlyThumbnailsChanged(e', e)
    ensures e'.cache.thumbnails.Keys <= e.cache.thumbnails.Keys + c'.loadedThumbnails.Keys
  {
    var n := if |photos| < ThumbnailPreloadCount then |photos| else ThumbnailPreloadCount;
    c', e' := c, e;
    var i := 0;
    while i < n
      invariant 0 <= i <= n
      invariant c' == c.(loadedThumbnails := c'.loadedThumbnails)
      invariant Extends(c'.loadedThumbnails, c.loadedThumbnails)
      invariant Extends(e'.cache.thumbnails, e.cache.thumbnails) && OnlyThumbnailsChanged(e', e)
      invariant e'.cache.thumbnails.Keys <= e.cache.thumbnails.Keys + c'.loadedThumbnails.Keys
      invariant PrefixCovered(c, e, c', photos, i, loader)
      invariant NewThumbnailsAvailable(c, e, c', photos, i, loader)
      invariant NewThumbnailsCached(c, c', e')
      invariant NewThumbnailsLoaded(c, e, c', photos, i, loader)
    {
      StepCoversPrefix(c, e, c', e', photos, i, loader);
      StepLoadsFromLoader(c, e, c', e', photos, i, loader);
      StepKeepsNewCached(c, c', e', photos[i], loader);
      StepLoadsOnlyAvailable(c, e, c', e', photos, i, loader);
      var step := LoadThumbnailIfNeeded(c', e', photos[i], loader);
      c', e' := step.card, step.engine;
      i := i + 1;
    }
  }

  /** Every photo among the first `i` that had a thumbnail, or could get one from `e`, has one in `c1`. */
  ghost predicate PrefixCovered(c: CardState, e: Engine, c1: CardState, photos: seq<Photo>, i: nat,
                                loader: Photo -> Option<Image>)
    requires i <= |photos|
  {
    forall j :: 0 <= j < i ==>
      (photos[j].id in c.loadedThumbnails || ThumbnailAvailable(e, photos[j], loader) ==>
         photos[j].id in c1.loadedThumbnails)
  }

  /** Every thumbnail `c1` gained over `c` belongs to one of the first `i` photos that `e` could serve. */
  ghost predicate NewThumbnailsAvailable(c: CardState, e: Engine, c1: CardState, photos: seq<Photo>, i: nat,
                                         loader: Photo -> Option<Image>)
    requires i <= |photos|
  {
    forall k :: k in c1.loadedThumbnails && k !in c.loadedThumbnails ==>
      exists j :: 0 <= j < i && photos[j].id == k && ThumbnailAvailable(e, photos[j], loader)
  }

  /** Every thumbnail `c1` gained over `c` for an id `e` had not cached is what the loader
      returned for one of the first `i` photos with that id. */
  ghost predicate NewThumbnailsLoaded(c: CardState, e: Engine, c1: CardState, photos: seq<Photo>, i: nat,
                                      loader: Photo -> Option<Image>)
    requires i <= |photos|
  {
    forall k :: k in c1.loadedThumbnails && k !in c.loadedThumbnails && k !in e.cache.thumbnails ==>
      exists j :: 0 <= j < i && photos[j].id == k && loader(photos[j]) == Some(c1.loadedThumbnails[k])
  }

  /** Every thumbnail `c1` gained over `c` is the one the engine `e1` has cached for that id. */
  ghost predicate NewThumbnailsCached(c: CardState, c1: CardState, e1: Engine) {
    forall k :: k in c1.loadedThumbnails && k !in c.loadedThumbnails ==>
      k in e1.cache.thumbnails && c1.loadedThumbnails[k] == e1.cache.thumbnails[k]
  }

  /** One more guarded load keeps the view's new thumbnails in step with the cache. */
  lemma StepKeepsNewCached(c: CardState, c1: CardState, e1: Engine, p: Photo, loader: Photo -> Option<Image>)
    requires NewThumbnailsCached(c, c1, e1)
    ensures var s := LoadThumbnailIfNeeded(c1, e1, p, loader);
            NewThumbnailsCached(c, s.card, s.engine)
  {
    var s := LoadThumbnailIfNeeded(c1, e1, p, loader);
    forall k | k in s.card.loadedThumbnails && k !in c.loadedThumbnails
      ensures k in s.engine.cache.thumbnails && s.card.loadedThumbnails[k] == s.engine.cache.thumbnails[k]
    {
      if k != p.id || p.id in c1.loadedThumbnails {
        assert k in s.card.loadedThumbnails - {p.id} || s == Step(c1, e1);
      }
    }
  }

  /** One more guarded load extends the covered prefix by one photo. */
  lemma StepCoversPrefix(c: CardState, e: Engine, c1: CardState, e1: Engine, photos: seq<Photo>, i: nat,
                         loader: Photo -> Option<Image>)
    requires i < |photos| && PrefixCovered(c, e, c1, photos, i, loader)
    requires Extends(c1.loadedThumbnails, c.loadedThumbnails)
    requires Extends(e1.cache.thumbnails, e.cache.thumbnails)
    ensures PrefixCovered(c, e, LoadThumbnailIfNeeded(c1, e1, photos[i], loader).card, photos, i + 1, loader)
  {
  }

  /** One more guarded load only adds a thumbnail the original engine could have served. */
  lemma StepLoadsOnlyAvailable(c: CardState, e: Engine, c1: CardState, e1: Engine, photos: seq<Photo>, i: nat,
                               loader: Photo -> Option<Image>)
    requires i < |photos| && NewThumbnailsAvailable(c, e, c1, photos, i, loader)
    requires e1.cache.thumbnails.Keys <= e.cache.thumbnails.Keys + c1.loadedThumbnails.Keys
    ensures NewThumbnailsAvailable(c, e, LoadThumbnailIfNeeded(c1, e1, photos[i], loader).card, photos, i + 1, loader)
  {
    var r := LoadThumbnailIfNeeded(c1, e1, photos[i], loader).card;
    forall k | k in r.loadedThumbnails && k !in c.loadedThumbnails
      ensures exists j :: 0 <= j < i + 1 && photos[j].id == k && ThumbnailAvailable(e, photos[j], loader)
    {
      if k in c1.loadedThumbnails {
        var j :| 0 <= j < i && photos[j].id == k && ThumbnailAvailable(e, photos[j], loader);
      } else {
        assert k == photos[i].id && ThumbnailAvailable(e, photos[i], loader);
      }
    }
  }

  /** One more guarded load only adds, for an id the original engine had not cached, the
      thumbnail the loader returned for that photo. */
  lemma StepLoadsFromLoader(c: CardState, e: Engine, c1: CardState, e1: Engine, photos: seq<Photo>, i: nat,
                            loader: Photo -> Option<Image>)
    requires i < |photos| && NewThumbnailsLoaded(c, e, c1, photos, i, loader)
    requires e1.cache.thumbnails.Keys <= e.cache.thumbnails.Keys + c1.loadedThumbnails.Keys
    ensures NewThumbnailsLoaded(c, e, LoadThumbnailIfNeeded(c1, e1, photos[i], loader).card, photos, i + 1, loader)
  {
    var r := LoadThumbnailIfNeeded(c1, e1, photos[i], loader).card;
    forall k | k in r.loadedThumbnails && k !in c.loadedThumbnails && k !in e.cache.thumbnails
      ensures exists j :: 0 <= j < i + 1 && photos[j].id == k && loader(photos[j]) == Some(r.loadedThumbnails[k])
    {
      if k in c1.loadedThumbnails {
        var j :| 0 <= j < i && photos[j].id == k && loader(photos[j]) == Some(c1.loadedThumbnails[k]);
        assert r.loadedThumbnails[k] == c1.loadedThumbnails[k];
      } else {
        assert k == photos[i].id && k !in e1.cache.thumbnails;
        assert loader(photos[i]) == Some(r.loadedThumbnails[k]);
      }
    }
  }
}

=== FILE: constants.dfy ===
/** The tuning constants the core reads (Constants.swift). */
module AppConstants {

  /** Horizontal drag distance a swipe must exceed to count as a decision. */
  const SwipeThreshold: real := 100.0

  /** Horizontal position an accepted card is animated out to. */
  const OffscreenOffset: real := 500.0

  /** Rotation, in degrees, of a card at the end of its exit animation. */
  const MaxRotation: real := 15.0

  /** Horizontal offset per degree of card rotation while dragging. Constants.swift has no such
      entry: the divisor is written inline in the drag handler (CardStackViewModel.swift:24) and
      is collected here with the other tuning numbers. */
  const RotationDivisor: real := 20.0

  /** How many photos at the front of a list get their thumbnails preloaded. */
  const ThumbnailPreloadCount: nat := 20
}

=== FILE: delete_queue.dfy ===
/** The ordered queue of assets awaiting batch deletion (DeleteQueueManager.swift). */
module DeleteQueues {
  import opened Wrappers
  import opened PhotoModels
  import Seqs

  /** The result of `removeLast()`: the popped asset, if any, and the queue that remains. */
  datatype Pop = Pop(last: Option<Asset>, rest: DeleteQueue)

  datatype DeleteQueue = DeleteQueue(queue: seq<Asset>) {

    /** `count`: the number of queue entries (see `CountMatchesIds` for how it relates to the
        number of queued ids). */
    function Count(): (n: nat)
      ensures n == 0 <==> queue == []
    {
      |queue|
    }

    function IsEmpty(): (b: bool)
      ensures b <==> Count() == 0
    {
      queue == []
    }

    /** The identifiers of the queued assets. */
    function Ids(): set<string> {
      AssetIds(queue)
    }

    /** No identifier is queued twice. */
    ghost predicate Unique() {
      Seqs.UniqueBy(queue, AssetIdOf)
    }

    /** `add`: appends at the tail, duplicates allowed. */
    function Add(a: Asset): (r: DeleteQueue)
      ensures r.Count() == Count() + 1
      ensures r.queue[..Count()] == queue && r.queue[Count()] == a
      ensures r.Ids() == Ids() + {a.localIdentifier}
    {
      Seqs.KeySetConcat(queue, [a], AssetIdOf);
      assert Seqs.KeySet([a], AssetIdOf) == {a.localIdentifier} by {
        assert a in [a];
      }
      DeleteQueue(queue + [a])
    }

    /** `remove(byId:)`: drops EVERY asset with that identifier, keeping the others in order. */
    function RemoveById(id: string): (r: DeleteQueue)
      ensures forall a :: a in r.queue <==> a in queue && a.localIdentifier != id
      ensures r.Ids() == Ids() - {id}
      ensures id in Ids() ==> r.Count() < Count()
      ensures id !in Ids() ==> r == this
    {
      var keep := (a: Asset) => a.localIdentifier != id;
      var r := DeleteQueue(Seqs.Filter(queue, keep));
      if id in Ids() then
        var i :| 0 <= i < |queue| && queue[i].localIdentifier == id;
        Seqs.FilterDropsOne(queue, keep, i);
        r
      else
        Seqs.KeySetCovers(queue, AssetIdOf);
        Seqs.FilterKeepsAll(queue, keep);
        r
    }

    /** `contains(id:)`: a linear scan for an asset with that identifier. */
    function Contains(id: string): (b: bool)
      ensures b <==> exists i :: 0 <= i < |queue| && queue[i].localIdentifier == id
      decreases |queue|
    {
      if queue == [] then false
      else queue[0].localIdentifier == id || DeleteQueue(queue[1..]).Contains(id)
    }

    /** `removeLast()`: pops the most recently queued asset; nil on an empty queue. */
    function RemoveLast(): (r: Pop)
      ensures IsEmpty() ==> r.last == None && r.rest == this
      ensures !IsEmpty() ==> r.last == Some(queue[Count() - 1]) && r.rest.queue + [r.last.value] == queue
    {
      if queue == [] then Pop(None, this)
      else Pop(Some(queue[|queue| - 1]), DeleteQueue(queue[..|queue| - 1]))
    }

    /** `clear()`. */
    function Clear(): (r: DeleteQueue)
      ensures r.IsEmpty()
    {
      DeleteQueue([])
    }
  }

  /** A queue that has never been added to. */
  const EmptyQueue := DeleteQueue([])

  /** The count is never below the number of queued ids, and equals it exactly when no id is
      queued twice; a repeated `add` of the same asset is counted once per entry. */
  lemma CountMatchesIds(q: DeleteQueue)
    ensures |q.Ids()| <= q.Count()
    ensures q.Unique() <==> q.Count() == |q.Ids()|
  {
    Seqs.KeySetSize(q.queue, AssetIdOf);
  }

  /** `contains` agrees with the identifier set. */
  lemma ContainsMeansQueued(q: DeleteQueue, id: string)
    ensures q.Contains(id) <==> id in q.Ids()
  {
    if q.Contains(id) {
      var i :| 0 <= i < |q.queue| && q.queue[i].localIdentifier == id;
      assert q.queue[i] in q.queue;
    }
  }

  /** LIFO: popping right after an add returns that asset and the queue as it was. */
  lemma AddThenRemoveLast(q: DeleteQueue, a: Asset)
    ensures q.Add(a).RemoveLast() == Pop(Some(a), q)
  {
    assert (q.queue + [a])[..|q.queue|] == q.queue;
  }

  /** Re-adding what was just popped restores the queue. */
  lemma RemoveLastThenAdd(q: DeleteQueue)
    requires !q.IsEmpty()
    ensures q.RemoveLast().rest.Add(q.RemoveLast().last.value) == q
  {
  }

  /** Removal by id keeps the surviving assets in their original relative order. */
  lemma RemoveByIdConcat(a: seq<Asset>, b: seq<Asset>, id: string)
    ensures DeleteQueue(a + b).RemoveById(id).queue
         == DeleteQueue(a).RemoveById(id).queue + DeleteQueue(b).RemoveById(id).queue
  {
    Seqs.FilterConcat(a, b, (x: Asset) => x.localIdentifier != id);
  }

  /** Removing by id right after adding an asset of that id undoes the add, and also drops the
      earlier entries of the id. */
  lemma AddThenRemoveById(q: DeleteQueue, a: Asset)
    ensures q.Add(a).RemoveById(a.localIdentifier) == q.RemoveById(a.localIdentifier)
  {
    var id := a.localIdentifier;
    RemoveByIdConcat(q.queue, [a], id);
    Seqs.FilterDropsAll([a], (x: Asset) => x.localIdentifier != id);
    assert DeleteQueue([a]).RemoveById(id).queue == [];
  }

  /** Removing an identifier twice is the same as removing it once. */
  lemma RemoveByIdIdempotent(q: DeleteQueue, id: string)
    ensures q.RemoveById(id).RemoveById(id) == q.RemoveById(id)
  {
  }

  /** Popping the tail of a queue with unique ids leaves that id absent from the rest. */
  lemma UniquePopLeavesIdAbsent(q: DeleteQueue)
    requires q.Unique() && !q.IsEmpty()
    ensures q.RemoveLast().rest.Unique()
    ensures q.RemoveLast().last.value.localIdentifier !in q.RemoveLast().rest.Ids()
    ensures q.Ids() == q.RemoveLast().rest.Ids() + {q.RemoveLast().last.value.localIdentifier}
  {
    var rest := q.RemoveLast().rest;
    var last := q.queue[|q.queue| - 1];
    assert q.queue == rest.queue + [last];
    forall i, j | 0 <= i < |rest.queue| && 0 <= j < |rest.queue| && i != j
      ensures AssetIdOf(rest.queue[i]) != AssetIdOf(rest.queue[j])
    {
      assert rest.queue[i] == q.queue[i] && rest.queue[j] == q.queue[j];
    }
    forall i | 0 <= i < |rest.queue|
      ensures AssetIdOf(rest.queue[i]) != AssetIdOf(last)
    {
      assert rest.queue[i] == q.queue[i];
    }
    Seqs.KeySetConcat(rest.queue, [last], AssetIdOf);
    Seqs.KeySetCovers(rest.queue, AssetIdOf);
    assert Seqs.KeySet([last], AssetIdOf) == {last.localIdentifier} by {
      assert last in [last];
    }
  }
}

=== FILE: image_cache.dfy ===
/** The two-tier in-memory image cache (ImageCacheService.swift), keyed by photo id. */
module ImageCaches {
  import opened Wrappers
  import opened PhotoModels

  datatype ImageCache = ImageCache(images: map<string, Image>, thumbnails: map<string, Image>) {

    /** `getImage(for:)`: the full-size entry, or nil on a miss. */
    function GetImage(id: string): (r: Option<Image>)
      ensures r.Some? <==> id in images
      ensures r.Some? ==> r.value == images[id]
    {
      if id in images then Some(images[id]) else None
    }

    /** `getThumbnail(for:)`: the thumbnail entry, or nil on a miss. */
    function GetThumbnail(id: string): (r: Option<Image>)
      ensures r.Some? <==> id in thumbnails
      ensures r.Some? ==> r.value == thumbnails[id]
    {
      if id in thumbnails then Some(thumbnails[id]) else None
    }

    /** `cacheImage(_:for:)`: stores or overwrites the full-size entry; nothing else moves. */
    function CacheImage(img: Image, id: string): (r: ImageCache)
      ensures r.GetImage(id) == Some(img)
      ensures forall k :: k != id ==> r.GetImage(k) == GetImage(k)
      ensures r.thumbnails == thumbnails
    {
      this.(images := images[id := img])
    }

    /** `cacheThumbnail(_:for:)`: stores or overwrites the thumbnail entry; nothing else moves. */
    function CacheThumbnail(img: Image, id: string): (r: ImageCache)
      ensures r.GetThumbnail(id) == Some(img)
      ensures forall k :: k != id ==> r.GetThumbnail(k) == GetThumbnail(k)
      ensures r.images == images
    {
      this.(thumbnails := thumbnails[id := img])
    }

    /** `removeImage(for:)`: evicts the full-size entry only; a miss is a no-op. */
    function RemoveImage(id: string): (r: ImageCache)
      ensures r.GetImage(id) == None
      ensures forall k :: k != id ==> r.GetImage(k) == GetImage(k)
      ensures r.thumbnails == thumbnails
      ensures id !in images ==> r == this
    {
      this.(images := images - {id})
    }

    /** `removeThumbnail(for:)`: evicts the thumbnail entry only; a miss is a no-op. */
    function RemoveThumbnail(id: string): (r: ImageCache)
      ensures r.GetThumbnail(id) == None
      ensures forall k :: k != id ==> r.GetThumbnail(k) == GetThumbnail(k)
      ensures r.images == images
      ensures id !in thumbnails ==> r == this
    {
      this.(thumbnails := thumbnails - {id})
    }

    /** `clearAll()`: every lookup in either tier misses afterwards. */
    function ClearAll(): (r: ImageCache)
      ensures forall k :: r.GetImage(k) == None && r.GetThumbnail(k) == None
    {
      ImageCache(map[], map[])
    }
  }

  /** The cache a service starts with. */
  const EmptyCache := ImageCache(map[], map[])

  /** Nothing is found in a fresh cache. */
  lemma EmptyMisses(id: string)
    ensures EmptyCache.GetImage(id) == None && EmptyCache.GetThumbnail(id) == None
  {
  }

  /** A later `cacheImage` for the same id replaces the earlier image. */
  lemma CacheImageOverwrites(c: ImageCache, first: Image, second: Image, id: string)
    ensures c.CacheImage(first, id).CacheImage(second, id) == c.CacheImage(second, id)
  {
  }

  /** Storing or evicting in one tier, for any id, leaves every lookup in the other tier as it
      was; in particular a thumbnail survives the eviction of the full-size image of its id. */
  lemma TiersIndependent(c: ImageCache, img: Image, id: string, k: string)
    ensures c.CacheImage(img, id).GetThumbnail(k) == c.GetThumbnail(k)
    ensures c.RemoveImage(id).GetThumbnail(k) == c.GetThumbnail(k)
    ensures c.CacheThumbnail(img, id).GetImage(k) == c.GetImage(k)
    ensures c.RemoveThumbnail(id).GetImage(k) == c.GetImage(k)
    ensures c.CacheImage(img, id).CacheThumbnail(img, id).RemoveImage(id).GetThumbnail(id) == Some(img)
  {
  }
}

=== FILE: photo_model.dfy ===
/** The photo record (PhotoModel.swift): an identifier plus the library asset it wraps. */
module PhotoModels {
  import opened Wrappers
  import Seqs

  /** A point on the globe, standing in for CLLocation. */
  datatype Coordinate = Coordinate(latitude: real, longitude: real)

  /** A library asset (PHAsset): the local identifier the core keys on, with the metadata the
      photo record exposes carried along. */
  datatype Asset = Asset(localIdentifier: string, creationDate: Option<int>, location: Option<Coordinate>)

  /** A decoded image (UIImage), an opaque handle. */
  datatype Image = Image(handle: nat)

  /** A reviewable photo. The repository builds it with `id == asset.localIdentifier`. */
  datatype Photo = Photo(id: string, asset: Asset)

  /** The photo's custom `==`: identity only, the asset is ignored. */
  predicate SamePhoto(a: Photo, b: Photo) {
    a.id == b.id
  }

  /** Photos wrapping the same asset under different records are still equal. */
  lemma SamePhotoIgnoresAsset(id: string, a1: Asset, a2: Asset)
    ensures SamePhoto(Photo(id, a1), Photo(id, a2))
  {
  }

  /** Equality is an equivalence relation, and it holds exactly when the ids agree. */
  lemma SamePhotoIsEquivalence(a: Photo, b: Photo, c: Photo)
    ensures SamePhoto(a, b) <==> a.id == b.id
    ensures SamePhoto(a, a)
    ensures SamePhoto(a, b) ==> SamePhoto(b, a)
    ensures SamePhoto(a, b) && SamePhoto(b, c) ==> SamePhoto(a, c)
  {
  }

  /** The record is the one the repository would build from its asset. */
  predicate WellFormed(p: Photo) {
    p.id == p.asset.localIdentifier
  }

  /** The photo the engine rebuilds from a queued asset when undoing a deletion. */
  function FromAsset(a: Asset): (p: Photo)
    ensures WellFormed(p) && p.asset == a
  {
    Photo(a.localIdentifier, a)
  }

  /** Rebuilding a record from its own asset gives the record back exactly when it is well
      formed. */
  lemma RebuildFromAsset(p: Photo)
    ensures FromAsset(p.asset) == p <==> WellFormed(p)
  {
  }

  /** The key photos are compared and indexed by. */
  function IdOf(p: Photo): string {
    p.id
  }

  /** The key queued assets are matched by. */
  function AssetIdOf(a: Asset): string {
    a.localIdentifier
  }

  /** The identifiers of a sequence of photos. */
  function Ids(s: seq<Photo>): set<string> {
    Seqs.KeySet(s, IdOf)
  }

  /** The identifiers of a sequence of assets. */
  function AssetIds(s: seq<Asset>): set<string> {
    Seqs.KeySet(s, AssetIdOf)
  }

  /** No identifier occurs twice. */
  ghost predicate UniqueIds(s: seq<Photo>) {
    Seqs.UniqueBy(s, IdOf)
  }

  /** Every record in the sequence is well formed. */
  predicate AllWellFormed(s: seq<Photo>) {
    forall p :: p in s ==> WellFormed(p)
  }

  /** The photos whose id is not in `ids`, in their original order; the bulk removal the
      commit applies to the master list and to the stack. */
  function WithoutIds(s: seq<Photo>, ids: set<string>): (r: seq<Photo>)
    ensures forall p :: p in r <==> p in s && p.id !in ids
    ensures Ids(r) == Ids(s) - ids
    ensures |r| <= |s|
    ensures Ids(s) !! ids ==> r == s
  {
    var r := Seqs.Filter(s, (p: Photo) => p.id !in ids);
    if Ids(s) !! ids then
      Seqs.KeySetCovers(s, IdOf);
      Seqs.FilterKeepsAll(s, (p: Photo) => p.id !in ids);
      r
    else
      r
  }

  /** A sequence headed by `x` has unique ids exactly when its tail does and avoids `x.id`. */
  lemma UniqueIdsCons(x: Photo, t: seq<Photo>)
    ensures UniqueIds([x] + t) <==> x.id !in Ids(t) && UniqueIds(t)
  {
    Seqs.UniqueByCons(x, t, IdOf);
  }

  /** Removing photos never introduces a repeated identifier. */
  lemma WithoutIdsKeepsUnique(s: seq<Photo>, ids: set<string>)
    requires UniqueIds(s)
    ensures UniqueIds(WithoutIds(s, ids))
  {
    Seqs.FilterKeepsUnique(s, (p: Photo) => p.id !in ids, IdOf);
  }

  /** With unique ids there are exactly as many ids as photos. */
  lemma UniqueIdsCount(s: seq<Photo>)
    requires UniqueIds(s)
    ensures |Ids(s)| == |s|
  {
    Seqs.KeySetSize(s, IdOf);
  }

  /** Removal by id keeps the survivors in their original relative order. */
  lemma WithoutIdsConcat(a: seq<Photo>, b: seq<Photo>, ids: set<string>)
    ensures WithoutIds(a + b, ids) == WithoutIds(a, ids) + WithoutIds(b, ids)
  {
    Seqs.FilterConcat(a, b, (p: Photo) => p.id !in ids);
  }

  /** In a sequence with unique ids, a photo's own id occurs exactly at its position. */
  lemma UniqueIdsHead(s: seq<Photo>)
    requires UniqueIds(s) && |s| > 0
    ensures WithoutIds(s, {s[0].id}) == s[1..]
  {
    assert s == [s[0]] + s[1..];
    UniqueIdsCons(s[0], s[1..]);
    WithoutIdsConcat([s[0]], s[1..], {s[0].id});
    assert WithoutIds([s[0]], {s[0].id}) == [];
  }

  /** Removal by id, one photo at a time from the front. */
  lemma WithoutIdsCons(x: Photo, t: seq<Photo>, ids: set<string>)
    ensures WithoutIds([x] + t, ids) == (if x.id in ids then [] else [x]) + WithoutIds(t, ids)
  {
    WithoutIdsConcat([x], t, ids);
    assert ([x] + t)[1..] == t;
  }

  /** Removing a photo's id from a list removes exactly the entries equal to it under the
      photo's `==`, so id-based removal and equality-based membership agree. */
  lemma WithoutIdIsWithoutEqual(s: seq<Photo>, p: Photo)
    ensures forall q :: q in WithoutIds(s, {p.id}) <==> q in s && !SamePhoto(q, p)
    ensures forall q :: SamePhoto(q, p) ==> q.id !in Ids(WithoutIds(s, {p.id}))
  {
  }
}

=== FILE: review_engine.dfy ===
/**
 * The photo review engine (ContentViewModel.swift): the review stack, the kept set with its
 * counter, the delete queue, the master photo list and the image cache, with every operation
 * written as a pure transition from one engine state to the next.
 */
module ReviewEngine {
  import opened Wrappers
  import opened PhotoModels
  import opened SwipeActions
  import opened DeleteQueues
  import opened ImageCaches
  import Seqs

  datatype Engine = Engine(
    photos: seq<Photo>,          // the review stack, front = next to review
    allPhotos: seq<Photo>,       // every photo of the last load that has not been deleted
    keptIds: set<string>,
    keptCount: int,              // the published counter, refreshed only by some operations
    deleteQueue: DeleteQueue,
    cache: ImageCache,
    errorMessage: Option<string>)

  /** A freshly constructed view model. */
  const Initial := Engine([], [], {}, 0, EmptyQueue, EmptyCache, None)

  /** The prefix of the message reported when the batch delete fails. */
  const DeleteFailurePrefix := "Failed to delete photos: "

  /** What a read-through image load returns: the engine after caching, and the image or nil. */
  datatype Loaded = Loaded(engine: Engine, image: Option<Image>)

  // ---------------------------------------------------------------- queries

  /** The queue length shown to the user: one per entry, so a photo queued twice counts twice;
      it equals the number of distinct queued ids when none repeats. */
  function PhotosToDeleteCount(e: Engine): (n: nat)
    ensures n == |e.deleteQueue.queue|
    ensures e.deleteQueue.Unique() ==> n == |e.deleteQueue.Ids()|
  {
    CountMatchesIds(e.deleteQueue);
    e.deleteQueue.Count()
  }

  function HasPhotosToDelete(e: Engine): (b: bool)
    ensures b <==> PhotosToDeleteCount(e) > 0
  {
    !e.deleteQueue.IsEmpty()
  }

  /** Photos decided so far: queued entries plus the kept counter. With a fresh counter, no id
      queued twice and no id both kept and queued, it is the number of decided ids. */
  function TotalReviewed(e: Engine): (n: int)
    ensures e.keptCount == |e.keptIds| && e.deleteQueue.Unique() && e.keptIds !! e.deleteQueue.Ids() ==>
              n == |e.keptIds + e.deleteQueue.Ids()|
  {
    PhotosToDeleteCount(e) + e.keptCount
  }

  /** The decision recorded for an id: keep wins over delete, and undecided ids have none. */
  function DecisionFor(e: Engine, id: string): (d: Option<SwipeAction>)
    ensures d == Some(Keep) <==> id in e.keptIds
    ensures d == Some(Delete) <==> id !in e.keptIds && id in e.deleteQueue.Ids()
    ensures d == None <==> id !in e.keptIds && id !in e.deleteQueue.Ids()
  {
    ContainsMeansQueued(e.deleteQueue, id);
    if id in e.keptIds then Some(Keep)
    else if e.deleteQueue.Contains(id) then Some(Delete)
    else None
  }

  /** The queued photos as listed for review: the master list filtered, in master-list order. */
  function PhotosMarkedForDeletion(e: Engine): (r: seq<Photo>)
    ensures forall p :: p in r <==> p in e.allPhotos && p.id in e.deleteQueue.Ids()
    ensures |r| <= |e.allPhotos|
  {
    var deleteIds := e.deleteQueue.Ids();
    Seqs.Filter(e.allPhotos, (p: Photo) => p.id in deleteIds)
  }

  /** The review list follows the master list's order, not the queue's: listing a master list
      cut in two gives the two listings one after the other, and a one-photo master list lists
      that photo exactly when its id is queued. Together these fix the list for every input. */
  lemma PhotosMarkedInMasterOrder(e: Engine, a: seq<Photo>, b: seq<Photo>, p: Photo)
    ensures PhotosMarkedForDeletion(e.(allPhotos := a + b))
            == PhotosMarkedForDeletion(e.(allPhotos := a)) + PhotosMarkedForDeletion(e.(allPhotos := b))
    ensures PhotosMarkedForDeletion(e.(allPhotos := [p])) == if p.id in e.deleteQueue.Ids() then [p] else []
  {
    var deleteIds := e.deleteQueue.Ids();
    Seqs.FilterConcat(a, b, (p: Photo) => p.id in deleteIds);
  }

  /** The first stack position holding `id` (Swift's `firstIndex(where:)`). */
  function IndexOfId(s: seq<Photo>, id: string): (r: Option<nat>)
    ensures r.Some? ==> r.value < |s| && s[r.value].id == id
    ensures r.Some? ==> forall j :: 0 <= j < r.value ==> s[j].id != id
    ensures r.None? <==> id !in Ids(s)
    decreases |s|
  {
    if s == [] then None
    else if s[0].id == id then Seqs.KeySetCovers(s, IdOf); Some(0)
    else
      match IndexOfId(s[1..], id)
      case None => assert s == [s[0]] + s[1..]; None
      case Some(i) => Some(i + 1)
  }

  // ---------------------------------------------------------------- loading

  /** `loadPhotos()`: the fetched list replaces both the stack and the master list. */
  function LoadPhotos(e: Engine, fetched: seq<Photo>): (r: Engine)
    ensures r.photos == fetched && r.allPhotos == fetched
    ensures r.keptIds == e.keptIds && r.keptCount == e.keptCount
    ensures r.deleteQueue == e.deleteQueue && r.cache == e.cache && r.errorMessage == e.errorMessage
  {
    e.(photos := fetched, allPhotos := fetched)
  }

  /** `reset()`: forgets every decision and cached image, then reloads. */
  function Reset(e: Engine, fetched: seq<Photo>): (r: Engine)
    ensures r.deleteQueue.IsEmpty()
    ensures r.keptIds == {} && r.keptCount == 0 && TotalReviewed(r) == 0
    ensures forall k :: r.cache.GetImage(k) == None && r.cache.GetThumbnail(k) == None
    ensures r.photos == fetched && r.allPhotos == fetched
    ensures r.errorMessage == e.errorMessage
  {
    var cleared := e.(deleteQueue := e.deleteQueue.Clear(), keptIds := {}, keptCount := 0,
                      cache := e.cache.ClearAll(), allPhotos := []);
    LoadPhotos(cleared, fetched)
  }

  /** `loadImage(for:targetSize:)`: a cache hit is returned as is; a miss asks the loader
      and caches a non-nil result. */
  function LoadImage(e: Engine, p: Photo, loader: Photo -> Option<Image>): (r: Loaded)
    ensures p.id in e.cache.images ==> r == Loaded(e, Some(e.cache.images[p.id]))
    ensures p.id !in e.cache.images ==> r.image == loader(p)
    ensures p.id !in e.cache.images && loader(p).Some? ==>
              r.engine == e.(cache := e.cache.CacheImage(loader(p).value, p.id))
    ensures loader(p).None? ==> r.engine == e
  {
    match e.cache.GetImage(p.id)
    case Some(cached) => Loaded(e, Some(cached))
    case None =>
      match loader(p)
      case Some(img) => Loaded(e.(cache := e.cache.CacheImage(img, p.id)), Some(img))
      case None => Loaded(e, None)
  }

  /** `loadThumbnail(for:)`: the same read-through logic on the thumbnail tier. */
  function LoadThumbnail(e: Engine, p: Photo, loader: Photo -> Option<Image>): (r: Loaded)
    ensures p.id in e.cache.thumbnails ==> r == Loaded(e, Some(e.cache.thumbnails[p.id]))
    ensures p.id !in e.cache.thumbnails ==> r.image == loader(p)
    ensures p.id !in e.cache.thumbnails && loader(p).Some? ==>
              r.engine == e.(cache := e.cache.CacheThumbnail(loader(p).value, p.id))
    ensures loader(p).None? ==> r.engine == e
  {
    match e.cache.GetThumbnail(p.id)
    case Some(cached) => Loaded(e, Some(cached))
    case None =>
      match loader(p)
      case Some(img) => Loaded(e.(cache := e.cache.CacheThumbnail(img, p.id)), Some(img))
      case None => Loaded(e, None)
  }

  // ---------------------------------------------------------------- decisions

  /** `removeFromStack`: evicts the full-size image and drops every stack entry with the id. */
  function RemoveFromStack(e: Engine, p: Photo): (r: Engine)
    ensures forall q :: q in r.photos <==> q in e.photos && q.id != p.id
    ensures r.photos == WithoutIds(e.photos, {p.id})
    ensures r.cache.GetImage(p.id) == None && r.cache.thumbnails == e.cache.thumbnails
    ensures forall k :: k != p.id ==> r.cache.GetImage(k) == e.cache.GetImage(k)
    ensures r.allPhotos == e.allPhotos && r.keptIds == e.keptIds && r.keptCount == e.keptCount
    ensures r.deleteQueue == e.deleteQueue && r.errorMessage == e.errorMessage
  {
    e.(cache := e.cache.RemoveImage(p.id), photos := WithoutIds(e.photos, {p.id}))
  }

  /** `markForDeletion(_:)`: queues the asset at the tail and takes the photo off the stack
      and out of the kept set. The kept counter is left as it was. */
  function MarkForDeletion(e: Engine, p: Photo): (r: Engine)
    ensures r.deleteQueue == e.deleteQueue.Add(p.asset)
    ensures r.deleteQueue.RemoveLast() == Pop(Some(p.asset), e.deleteQueue)
    ensures r.keptIds == e.keptIds - {p.id} && r.keptCount == e.keptCount
    ensures forall q :: q in r.photos <==> q in e.photos && q.id != p.id
    ensures r.photos == WithoutIds(e.photos, {p.id})
    ensures r.cache.GetImage(p.id) == None && r.cache.thumbnails == e.cache.thumbnails
    ensures forall k :: k != p.id ==> r.cache.GetImage(k) == e.cache.GetImage(k)
    ensures r.allPhotos == e.allPhotos && r.errorMessage == e.errorMessage
  {
    AddThenRemoveLast(e.deleteQueue, p.asset);
    var queued := e.(deleteQueue := e.deleteQueue.Add(p.asset), keptIds := e.keptIds - {p.id});
    RemoveFromStack(queued, p)
  }

  /** `keepPhoto(_:)`: records the id as kept (the counter becomes the set's size), takes it
      out of the delete queue and off the stack. */
  function KeepPhoto(e: Engine, p: Photo): (r: Engine)
    ensures r.keptIds == e.keptIds + {p.id} && r.keptCount == |r.keptIds|
    ensures r.deleteQueue == e.deleteQueue.RemoveById(p.id)
    ensures forall a :: a in r.deleteQueue.queue <==> a in e.deleteQueue.queue && a.localIdentifier != p.id
    ensures r.deleteQueue.Ids() == e.deleteQueue.Ids() - {p.id}
    ensures p.id !in e.deleteQueue.Ids() ==> r.deleteQueue == e.deleteQueue
    ensures forall q :: q in r.photos <==> q in e.photos && q.id != p.id
    ensures r.photos == WithoutIds(e.photos, {p.id})
    ensures r.cache.GetImage(p.id) == None && r.cache.thumbnails == e.cache.thumbnails
    ensures forall k :: k != p.id ==> r.cache.GetImage(k) == e.cache.GetImage(k)
    ensures r.allPhotos == e.allPhotos && r.errorMessage == e.errorMessage
  {
    var kept := e.keptIds + {p.id};
    var decided := e.(keptIds := kept, deleteQueue := e.deleteQueue.RemoveById(p.id), keptCount := |kept|);
    RemoveFromStack(decided, p)
  }

  /** `restorePhoto(_:)`: takes the id out of the delete queue and records it as kept.
      The stack is untouched: a restored photo is kept, not sent back for review. */
  function RestorePhoto(e: Engine, p: Photo): (r: Engine)
    ensures r.deleteQueue == e.deleteQueue.RemoveById(p.id)
    ensures forall a :: a in r.deleteQueue.queue <==> a in e.deleteQueue.queue && a.localIdentifier != p.id
    ensures r.deleteQueue.Ids() == e.deleteQueue.Ids() - {p.id}
    ensures p.id !in e.deleteQueue.Ids() ==> r.deleteQueue == e.deleteQueue
    ensures r.keptIds == e.keptIds + {p.id} && r.keptCount == |r.keptIds|
    ensures r.photos == e.photos && r.allPhotos == e.allPhotos
    ensures r.cache == e.cache && r.errorMessage == e.errorMessage
  {
    var kept := e.keptIds + {p.id};
    e.(deleteQueue := e.deleteQueue.RemoveById(p.id), keptIds := kept, keptCount := |kept|)
  }

  /** `undoLastDelete()`: the most recently queued asset goes back on top of the stack;
      nothing happens when the queue is empty. */
  function UndoLastDelete(e: Engine): (r: Engine)
    ensures e.deleteQueue.IsEmpty() ==> r == e
    ensures !e.deleteQueue.IsEmpty() ==>
              var last := e.deleteQueue.queue[PhotosToDeleteCount(e) - 1];
              && r.photos == [FromAsset(last)] + e.photos
              && r.deleteQueue.Add(last) == e.deleteQueue
              && PhotosToDeleteCount(r) == PhotosToDeleteCount(e) - 1
    ensures r.keptIds == e.keptIds && r.keptCount == e.keptCount && r.allPhotos == e.allPhotos
    ensures r.cache == e.cache && r.errorMessage == e.errorMessage
  {
    var popped := e.deleteQueue.RemoveLast();
    match popped.last
    case None => e
    case Some(asset) => e.(deleteQueue := popped.rest, photos := [FromAsset(asset)] + e.photos)
  }

  /** `moveToFront(_:)`: a stacked photo is brought to the top by rotating the stack; a photo
      that is not stacked is pulled back out of the kept set and the queue and pushed on top. */
  function MoveToFront(e: Engine, p: Photo): (r: Engine)
    ensures IndexOfId(e.photos, p.id) == Some(0) ==> r == e
    ensures IndexOfId(e.photos, p.id).Some? ==>
              var i := IndexOfId(e.photos, p.id).value;
              && RotatedAt(r.photos, e.photos, i)
              && multiset(r.photos) == multiset(e.photos)
              && r.keptIds == e.keptIds && r.keptCount == e.keptCount && r.deleteQueue == e.deleteQueue
    ensures IndexOfId(e.photos, p.id).None? ==>
              && r.photos == [p] + e.photos
              && r.keptIds == e.keptIds - {p.id} && r.keptCount == |r.keptIds|
              && r.deleteQueue == e.deleteQueue.RemoveById(p.id)
              && (forall a :: a in r.deleteQueue.queue <==> a in e.deleteQueue.queue && a.localIdentifier != p.id)
              && (p.id !in e.deleteQueue.Ids() ==> r.deleteQueue == e.deleteQueue)
    ensures r.photos[0].id == p.id
    ensures r.allPhotos == e.allPhotos && r.cache == e.cache && r.errorMessage == e.errorMessage
  {
    match IndexOfId(e.photos, p.id)
    case Some(index) =>
      if index == 0 then RotatedAtZero(e.photos); e
      else e.(photos := Rotate(e.photos, index))
    case None =>
      var kept := e.keptIds - {p.id};
      e.(keptIds := kept, deleteQueue := e.deleteQueue.RemoveById(p.id), keptCount := |kept|,
         photos := [p] + e.photos)
  }

  /** Position `x` of a ring of `n` slots, for `x` less than twice around. */
  function Cyclic(x: nat, n: nat): (k: nat)
    requires x < 2 * n
    ensures k < n && (k == x || k == x - n)
  {
    if x < n then x else x - n
  }

  /** `r` is `s` turned so that position `i` comes first: position `k` of `r` holds the element
      `k` places after `i` in `s`, going round the end. */
  ghost predicate RotatedAt(r: seq<Photo>, s: seq<Photo>, i: nat) {
    && |r| == |s| && i < |s|
    && forall k :: 0 <= k < |r| ==> r[k] == s[Cyclic(i + k, |s|)]
  }

  /** Turning by zero places changes nothing. */
  lemma RotatedAtZero(s: seq<Photo>)
    requires |s| > 0
    ensures RotatedAt(s, s, 0)
  {
  }

  /** The stack turned so that position `i` comes first: the suffix from `i` followed by the
      prefix before it. */
  function Rotate(s: seq<Photo>, i: nat): (r: seq<Photo>)
    requires 0 < i < |s|
    ensures RotatedAt(r, s, i) && multiset(r) == multiset(s)
  {
    assert s == s[..i] + s[i..];
    s[i..] + s[..i]
  }

  // ---------------------------------------------------------------- commit

  /** The clean-up step of the batch commit: for every deleted id, drop it from the kept set and
      evict both cache tiers. The loop visits the ids in an arbitrary order. */
  method EvictDeleted(kept: set<string>, cache: ImageCache, deleted: set<string>)
    returns (kept': set<string>, cache': ImageCache)
    ensures kept' == kept - deleted
    ensures cache'.images == cache.images - deleted && cache'.thumbnails == cache.thumbnails - deleted
  {
    kept', cache' := kept, cache;
    var remaining := deleted;
    while remaining != {}
      invariant remaining <= deleted
      invariant kept' == kept - (deleted - remaining)
      invariant cache'.images == cache.images - (deleted - remaining)
      invariant cache'.thumbnails == cache.thumbnails - (deleted - remaining)
      decreases remaining
    {
      var id :| id in remaining;
      kept' := kept' - {id};
      cache' := cache'.RemoveImage(id).RemoveThumbnail(id);
      remaining := remaining - {id};
    }
  }

  /** `executeDeletes()` given the store's answer: nothing on an empty queue; on failure only
      the error message changes; on success every queued id disappears from the master list,
      the stack, the kept set and both cache tiers, and the queue is emptied. */
  function ExecuteDeletes(e: Engine, outcome: Outcome<string>): (r: Engine)
    ensures e.deleteQueue.IsEmpty() ==> r == e
    ensures !e.deleteQueue.IsEmpty() && outcome.Fail? ==>
              r == e.(errorMessage := Some(DeleteFailurePrefix + outcome.error))
    ensures !e.deleteQueue.IsEmpty() && outcome.Pass? ==>
              var deleted := e.deleteQueue.Ids();
              && r.deleteQueue.IsEmpty()
              && (forall q :: q in r.allPhotos <==> q in e.allPhotos && q.id !in deleted)
              && (forall q :: q in r.photos <==> q in e.photos && q.id !in deleted)
              && r.allPhotos == WithoutIds(e.allPhotos, deleted) && r.photos == WithoutIds(e.photos, deleted)
              && r.keptIds == e.keptIds - deleted && r.keptCount == |r.keptIds|
              && (forall k :: k in deleted ==> r.cache.GetImage(k) == None && r.cache.GetThumbnail(k) == None)
              && (forall k :: k !in deleted ==>
                    r.cache.GetImage(k) == e.cache.GetImage(k) && r.cache.GetThumbnail(k) == e.cache.GetThumbnail(k))
              && r.errorMessage == None
  {
    if e.deleteQueue.IsEmpty() then e
    else
      match outcome
      case Fail(description) => e.(errorMessage := Some(DeleteFailurePrefix + description))
      case Pass =>
        var deleted := e.deleteQueue.Ids();
        var kept := e.keptIds - deleted;
        e.(deleteQueue := e.deleteQueue.Clear(),
           allPhotos := WithoutIds(e.allPhotos, deleted),
           photos := WithoutIds(e.photos, deleted),
           keptIds := kept,
           cache := ImageCache(e.cache.images - deleted, e.cache.thumbnails - deleted),
           keptCount := |kept|,
           errorMessage := None)
  }
}

=== FILE: review_laws.dfy ===
/**
 * Laws relating several operations of the review engine and the card stack: what a swipe of
 * the top card does, how decisions undo and override each other, the read-through cache, the
 * batch commit, and a few worked scenarios on small photo lists.
 */
module ReviewLaws {
  import opened Wrappers
  import opened PhotoModels
  import opened SwipeActions
  import opened DeleteQueues
  import opened ImageCaches
  import opened ReviewEngine
  import opened ReviewPartition
  import opened CardStack
  import opened AppConstants

  // ---------------------------------------------------------------- decisions

  /** Keeping a photo twice is the same as keeping it once. */
  lemma KeepIdempotent(e: Engine, p: Photo)
    ensures KeepPhoto(KeepPhoto(e, p), p) == KeepPhoto(e, p)
  {
    var once := KeepPhoto(e, p);
    RemoveByIdIdempotent(e.deleteQueue, p.id);
    assert Ids(once.photos) !! {p.id};
    assert once.keptIds + {p.id} == once.keptIds;
  }

  /** Deciding the top card of a stack with unique ids removes exactly that card. */
  lemma DecideTopRemovesHead(e: Engine)
    requires UniqueIds(e.photos) && |e.photos| > 0
    ensures KeepPhoto(e, e.photos[0]).photos == e.photos[1..]
    ensures MarkForDeletion(e, e.photos[0]).photos == e.photos[1..]
  {
    UniqueIdsHead(e.photos);
  }

  /** Marking the top card and undoing gives the engine back, minus the card's full-size
      image, which stays evicted. The top card must be undecided, as it is in a consistent
      engine (see `TopIsUndecided`). */
  lemma MarkThenUndo(e: Engine)
    requires UniqueIds(e.photos) && |e.photos| > 0
    requires WellFormed(e.photos[0]) && e.photos[0].id !in e.keptIds
    ensures UndoLastDelete(MarkForDeletion(e, e.photos[0]))
         == e.(cache := e.cache.RemoveImage(e.photos[0].id))
  {
    var p := e.photos[0];
    var marked := MarkForDeletion(e, p);
    UniqueIdsHead(e.photos);
    assert marked.photos == e.photos[1..];
    var u := UndoLastDelete(marked);
    assert u == marked.(deleteQueue := e.deleteQueue, photos := [FromAsset(p.asset)] + marked.photos);
    assert FromAsset(p.asset) == p;
    assert [p] + e.photos[1..] == e.photos;
    assert e.keptIds - {p.id} == e.keptIds;
  }

  /** In a consistent engine the top card is well formed and undecided. */
  lemma TopIsUndecided(e: Engine)
    requires Consistent(e) && |e.photos| > 0
    ensures UniqueIds(e.photos) && WellFormed(e.photos[0])
    ensures e.photos[0].id !in e.keptIds && e.photos[0].id !in e.deleteQueue.Ids()
  {
    assert e.photos[0] in e.photos;
    Seqs.KeySetCovers(e.photos, IdOf);
    assert IdOf(e.photos[0]) in Ids(e.photos);
  }

  /** Marking a photo and then restoring it from the review screen is the same as keeping it,
      also when the photo was already queued: the restore drops every entry of its id. */
  lemma MarkThenRestoreIsKeep(e: Engine, p: Photo)
    requires WellFormed(p)
    ensures RestorePhoto(MarkForDeletion(e, p), p) == KeepPhoto(e, p)
  {
    AddThenRemoveById(e.deleteQueue, p.asset);
    MarkThenRestoreOffQueue(e, p);
  }

  /** Apart from the queue, marking and then restoring leaves every field as keeping does. */
  lemma MarkThenRestoreOffQueue(e: Engine, p: Photo)
    ensures var a, b := RestorePhoto(MarkForDeletion(e, p), p), KeepPhoto(e, p);
            && a.photos == b.photos && a.cache == b.cache && a.keptIds == b.keptIds
            && a.allPhotos == b.allPhotos && a.errorMessage == b.errorMessage && a.keptCount == b.keptCount
  {
    assert (e.keptIds - {p.id}) + {p.id} == e.keptIds + {p.id};
  }

  /** Undoing with nothing queued changes nothing. */
  lemma UndoOnEmptyQueue(e: Engine)
    requires !HasPhotosToDelete(e)
    ensures UndoLastDelete(e) == e
  {
  }

  /** The kept counter goes stale when a kept photo is marked: it still counts the photo,
      so the progress total counts it twice. */
  lemma MarkKeptLeavesCounterStale(e: Engine, p: Photo)
    requires p.id in e.keptIds && e.keptCount == |e.keptIds|
    ensures MarkForDeletion(e, p).keptCount == |MarkForDeletion(e, p).keptIds| + 1
    ensures TotalReviewed(MarkForDeletion(e, p)) == TotalReviewed(e) + 1
  {
    assert |e.keptIds - {p.id}| == |e.keptIds| - 1;
  }

  /** The same stale counter is reachable from the views. A delete swipe of the top card only
      starts the exit animation; until the timer fires, the top card is still shown and the keep
      button keeps it. The timer then marks the photo that was just kept: the photo ends up
      queued and the counter still counts it as kept, so the partition invariant is lost. */
  lemma KeepDuringPendingDelete(c: CardState, e: Engine)
    requires Consistent(e) && |e.photos| > 0
    ensures var top := e.photos[0];
            var r := ResolveExit(c, KeepPhoto(e, top), PendingExit(Delete, top)).engine;
            && DecisionFor(r, top.id) == Some(Delete)
            && r.keptCount == |r.keptIds| + 1
            && TotalReviewed(r) == TotalReviewed(e) + 2
            && !Consistent(r)
  {
    TopIsUndecided(e);
    var top := e.photos[0];
    KeepUndecidedCounts(e, top);
    MarkKeptLeavesCounterStale(KeepPhoto(e, top), top);
  }

  /** Keeping an undecided photo with the counter in step adds one to the kept set, the
      counter and the progress total. */
  lemma KeepUndecidedCounts(e: Engine, p: Photo)
    requires p.id !in e.keptIds && p.id !in e.deleteQueue.Ids() && e.keptCount == |e.keptIds|
    ensures var k := KeepPhoto(e, p);
            && p.id in k.keptIds && k.keptCount == |k.keptIds|
            && TotalReviewed(k) == TotalReviewed(e) + 1
  {
  }

  /** Marking the same photo twice queues its asset twice. */
  lemma MarkTwiceQueuesTwice(e: Engine, p: Photo)
    ensures var r := MarkForDeletion(MarkForDeletion(e, p), p);
            && r.deleteQueue.queue == e.deleteQueue.queue + [p.asset, p.asset]
            && PhotosToDeleteCount(r) == PhotosToDeleteCount(e) + 2
  {
    var q := e.deleteQueue.queue;
    var once := MarkForDeletion(e, p);
    assert once.deleteQueue.queue == q + [p.asset];
    assert MarkForDeletion(once, p).deleteQueue.queue == (q + [p.asset]) + [p.asset];
    assert (q + [p.asset]) + [p.asset] == q + [p.asset, p.asset];
  }

  // ---------------------------------------------------------------- swipes

  /** A completed swipe of the top card removes it from the stack, records the decision
      and keeps the partition. */
  lemma SwipeTopCard(c: CardState, e: Engine, translation: Size)
    requires Consistent(e) && |e.photos| > 0
    requires HandleSwipeEnd(c, translation, e.photos[0]).pending.Some?
    ensures var exit := HandleSwipeEnd(c, translation, e.photos[0]).pending.value;
            var r := ResolveExit(HandleSwipeEnd(c, translation, e.photos[0]).card, e, exit);
            && r.engine.photos == e.photos[1..]
            && Consistent(r.engine)
            && DecisionFor(r.engine, e.photos[0].id) == Some(exit.action)
            && r.card.AtRest()
  {
    var p := e.photos[0];
    assert p in e.photos;
    DecideTopRemovesHead(e);
    KeepPreserves(e, p);
    MarkPreserves(e, p);
    Seqs.KeySetCovers(e.allPhotos, IdOf);
    Seqs.KeySetCovers(e.photos, IdOf);
    assert IdOf(p) in Ids(e.photos);
  }

  /** A drag released short of the threshold in either direction only resets the card. */
  lemma ShortDragSpringsBack(c: CardState, translation: Size, p: Photo)
    requires -SwipeThreshold <= translation.width <= SwipeThreshold
    ensures HandleSwipeEnd(HandleSwipeChange(c, translation), translation, p) == Release(ResetPosition(c), None)
  {
  }

  /** Mirroring a drag mirrors the outcome: the decision flips and the exit pose is reflected. */
  lemma SwipeEndMirror(c: CardState, w: real, h: real, p: Photo)
    ensures var right := HandleSwipeEnd(c, Size(w, h), p);
            var left := HandleSwipeEnd(c, Size(-w, h), p);
            && (right.pending.Some? <==> left.pending.Some?)
            && (right.pending.Some? ==>
                  && right.pending.value.action != left.pending.value.action
                  && right.card.offset.width == -left.card.offset.width
                  && right.card.rotation == -left.card.rotation)
            && (right.pending.None? ==> right.card == left.card)
  {
  }

  // ---------------------------------------------------------------- images

  /** The read-through full-size load, asked twice, possibly of a photo library whose answer
      changed in between (`l1` and then `l2`): once the first load produced an image, the second
      returns that image and leaves the engine as the first left it, whatever `l2` says; a first
      load that produced nothing left the engine untouched, so the second is a fresh request. */
  lemma LoadImageStable(e: Engine, p: Photo, l1: Photo -> Option<Image>, l2: Photo -> Option<Image>)
    ensures var first := LoadImage(e, p, l1);
            first.image.Some? ==> LoadImage(first.engine, p, l2) == first
    ensures var first := LoadImage(e, p, l1);
            first.image.None? ==> first.engine == e && LoadImage(first.engine, p, l2) == LoadImage(e, p, l2)
  {
  }

  /** The same for thumbnails. */
  lemma LoadThumbnailStable(e: Engine, p: Photo, l1: Photo -> Option<Image>, l2: Photo -> Option<Image>)
    ensures var first := LoadThumbnail(e, p, l1);
            first.image.Some? ==> LoadThumbnail(first.engine, p, l2) == first
    ensures var first := LoadThumbnail(e, p, l1);
            first.image.None? ==> first.engine == e && LoadThumbnail(first.engine, p, l2) == LoadThumbnail(e, p, l2)
  {
  }

  /** The card's guarded load, asked twice with possibly different library answers: once the
      card holds the image, the second request changes nothing whatever `l2` says; if the first
      request left the card without it, card and engine are as they were, and the second request
      behaves as a first one would with `l2`. */
  lemma LoadImageIfNeededIdempotent(c: CardState, e: Engine, p: Photo,
                                    l1: Photo -> Option<Image>, l2: Photo -> Option<Image>)
    ensures var first := LoadImageIfNeeded(c, e, p, l1);
            p.id in first.card.loadedImages ==> LoadImageIfNeeded(first.card, first.engine, p, l2) == first
    ensures var first := LoadImageIfNeeded(c, e, p, l1);
            p.id !in first.card.loadedImages ==>
              first == Step(c, e) && LoadImageIfNeeded(first.card, first.engine, p, l2) == LoadImageIfNeeded(c, e, p, l2)
  {
  }

  // ---------------------------------------------------------------- commit

  /** A failed commit keeps the queue, so a retry that succeeds ends exactly where an
      immediate success would have. */
  lemma RetryAfterFailure(e: Engine, description: string)
    ensures ExecuteDeletes(ExecuteDeletes(e, Fail(description)), Pass) == ExecuteDeletes(e, Pass)
  {
  }

  /** After a successful commit there is nothing left to commit. */
  lemma CommitThenCommit(e: Engine, outcome: Outcome<string>)
    ensures var once := ExecuteDeletes(e, Pass);
            ExecuteDeletes(once, outcome) == once
  {
  }

  // ---------------------------------------------------------------- scenarios

  const A1 := Asset("p1", None, None)
  const A2 := Asset("p2", None, None)
  const A3 := Asset("p3", None, None)
  const P1 := Photo("p1", A1)
  const P2 := Photo("p2", A2)
  const P3 := Photo("p3", A3)

  /** The engine after each step of the three-photo scenario. */
  const AfterMark := Engine([P2, P3], [P1, P2, P3], {}, 0, DeleteQueue([A1]), EmptyCache, None)
  const AfterKeep := Engine([P3], [P1, P2, P3], {"p2"}, 1, DeleteQueue([A1]), EmptyCache, None)
  const AfterUndo := Engine([P1, P3], [P1, P2, P3], {"p2"}, 1, DeleteQueue([]), EmptyCache, None)

  /** Load three photos, delete the first, keep the second, undo: the first is back on top
      of the remaining third and the queue is empty. */
  lemma ThreePhotoScenario()
    ensures MarkForDeletion(LoadPhotos(Initial, [P1, P2, P3]), P1) == AfterMark
    ensures KeepPhoto(AfterMark, P2) == AfterKeep
    ensures UndoLastDelete(AfterKeep) == AfterUndo
    ensures DecisionFor(AfterUndo, "p2") == Some(Keep) && DecisionFor(AfterUndo, "p1") == None
    ensures TotalReviewed(AfterUndo) == 1
  {
    ScenarioMarkStep();
    ScenarioKeepStep();
    ScenarioUndoStep();
    ScenarioDecisions();
  }

  lemma ScenarioUndoStep()
    ensures UndoLastDelete(AfterKeep) == AfterUndo
  {
    assert DeleteQueue([A1]).RemoveLast() == Pop(Some(A1), DeleteQueue([]));
  }

  lemma ScenarioDecisions()
    ensures DecisionFor(AfterUndo, "p2") == Some(Keep) && DecisionFor(AfterUndo, "p1") == None
    ensures TotalReviewed(AfterUndo) == 1
  {
  }

  lemma ScenarioMarkStep()
    ensures MarkForDeletion(LoadPhotos(Initial, [P1, P2, P3]), P1) == AfterMark
  {
    StackWithoutP1();
    assert EmptyQueue.Add(A1) == DeleteQueue([A1]);
  }

  lemma StackWithoutP1()
    ensures WithoutIds([P1, P2, P3], {"p1"}) == [P2, P3]
  {
    WithoutIdsCons(P1, [P2, P3], {"p1"});
    assert [P1, P2, P3] == [P1] + [P2, P3];
    assert Ids([P2, P3]) !! {"p1"} by {
      assert forall q :: q in [P2, P3] ==> q.id != "p1";
    }
  }

  lemma ScenarioKeepStep()
    ensures KeepPhoto(AfterMark, P2) == AfterKeep
  {
    StackWithoutP2();
    assert DeleteQueue([A1]).Ids() == {"p1"} by {
      assert A1 in [A1];
    }
  }

  lemma StackWithoutP2()
    ensures WithoutIds([P2, P3], {"p2"}) == [P3]
  {
    WithoutIdsCons(P2, [P3], {"p2"});
    assert [P2, P3] == [P2] + [P3];
    assert Ids([P3]) !! {"p2"} by {
      assert forall q :: q in [P3] ==> q.id != "p2";
    }
  }

  /** The review list follows the master list's order, not the queue's. */
  lemma MarkedListFollowsMasterOrder()
    ensures var e := LoadPhotos(Initial, [P1, P2, P3]).(deleteQueue := DeleteQueue([A3, A1]));
            PhotosMarkedForDeletion(e) == [P1, P3]
  {
    var e := LoadPhotos(Initial, [P1, P2, P3]).(deleteQueue := DeleteQueue([A3, A1]));
    var all := [P1, P2, P3];
    var keep := (p: Photo) => p.id in e.deleteQueue.Ids();
    assert e.deleteQueue.Ids() == {"p1", "p3"} by {
      assert A3 in e.deleteQueue.queue && A1 in e.deleteQueue.queue;
    }
    assert all[1..] == [P2, P3] && all[1..][1..] == [P3] && all[1..][1..][1..] == [];
    assert Seqs.Filter([P3], keep) == [P3];
    assert Seqs.Filter([P2, P3], keep) == [P3];
  }

  /** A successful commit of p1 and p3 leaves only p2 and evicts both tiers for the deleted. */
  lemma CommitScenario(img: Image)
    ensures var cache := ImageCache(map["p1" := img, "p2" := img], map["p1" := img, "p3" := img]);
            var e := LoadPhotos(Initial, [P1, P2, P3]).(deleteQueue := DeleteQueue([A1, A3]), cache := cache);
            var r := ExecuteDeletes(e, Pass);
            && r.allPhotos == [P2] && r.photos == [P2] && r.deleteQueue.IsEmpty()
            && r.cache == ImageCache(map["p2" := img], map[])
  {
    var cache := ImageCache(map["p1" := img, "p2" := img], map["p1" := img, "p3" := img]);
    var e := LoadPhotos(Initial, [P1, P2, P3]).(deleteQueue := DeleteQueue([A1, A3]), cache := cache);
    QueuedIdsOfP1P3();
    SurvivorsOfP1P3();
    assert cache.images - {"p1", "p3"} == map["p2" := img];
    assert cache.thumbnails - {"p1", "p3"} == map[];
  }

  lemma QueuedIdsOfP1P3()
    ensures DeleteQueue([A1, A3]).Ids() == {"p1", "p3"}
  {
    assert A1 in [A1, A3] && A3 in [A1, A3];
  }

  lemma SurvivorsOfP1P3()
    ensures WithoutIds([P1, P2, P3], {"p1", "p3"}) == [P2]
  {
    var deleted := {"p1", "p3"};
    SurvivorsOfP2P3();
    WithoutIdsCons(P1, [P2, P3], deleted);
    assert [P1, P2, P3] == [P1] + [P2, P3];
  }

  lemma SurvivorsOfP2P3()
    ensures WithoutIds([P2, P3], {"p1", "p3"}) == [P2]
  {
    var deleted := {"p1", "p3"};
    WithoutIdsCons(P2, [P3], deleted);
    assert [P2, P3] == [P2] + [P3];
    assert WithoutIds([P3], deleted) == [] by {
      WithoutIdsCons(P3, [], deleted);
      assert [P3] == [P3] + [];
    }
  }

  const JA := Photo("a", Asset("a", None, None))
  const JB := Photo("b", Asset("b", None, None))
  const JC := Photo("c", Asset("c", None, None))
  const JD := Photo("d", Asset("d", None, None))

  lemma IndexOfJC()
    ensures IndexOfId([JA, JB, JC, JD], "c") == Some(2)
  {
    var s := [JA, JB, JC, JD];
    Seqs.KeySetCovers(s, IdOf);
    assert IdOf(s[2]) in Ids(s);
    var i := IndexOfId(s, "c");
    assert i.Some?;
    assert i.value != 0 && i.value != 1 && i.value != 3 by {
      assert s[0].id == "a" && s[1].id == "b" && s[3].id == "d";
    }
  }

  /** Jumping to the third of four photos turns the stack round to it. */
  lemma JumpScenario()
    ensures JumpToPhoto(LoadPhotos(Initial, [JA, JB, JC, JD]), JC).photos == [JC, JD, JA, JB]
  {
    JumpRotatesAtJC();
    RotateJAtTwo();
  }

  lemma JumpRotatesAtJC()
    ensures var s := [JA, JB, JC, JD];
            JumpToPhoto(LoadPhotos(Initial, s), JC).photos == Rotate(s, 2)
  {
    var s := [JA, JB, JC, JD];
    var e := LoadPhotos(Initial, s);
    IndexOfJC();
    assert MoveToFront(e, JC) == e.(photos := Rotate(s, 2));
  }

  lemma RotateJAtTwo()
    ensures Rotate([JA, JB, JC, JD], 2) == [JC, JD, JA, JB]
  {
    var s := [JA, JB, JC, JD];
    assert s[2..] == [JC, JD] && s[..2] == [JA, JB];
  }
}

=== FILE: review_partition.dfy ===
/**
 * The central invariant of the review engine: every photo of the master list is in exactly one
 * of three places (the review stack, the kept set, the delete queue), nothing else is, and the
 * kept counter equals the size of the kept set. Each operation preserves it when called the way
 * the views call it.
 */
module ReviewPartition {
  import opened Wrappers
  import opened PhotoModels
  import opened SwipeActions
  import opened DeleteQueues
  import opened ImageCaches
  import opened ReviewEngine
  import Seqs

  /** The three states a loaded photo can be in. */
  datatype Status = Unreviewed | Kept | Queued

  /** Stack, kept set and queue ids are pairwise disjoint and together make up the master list. */
  ghost predicate ThreeWay(stack: set<string>, kept: set<string>, queued: set<string>, all: set<string>) {
    && stack !! kept && stack !! queued && kept !! queued
    && stack + kept + queued == all
  }

  /** Every list holds well-formed records without repeated ids. */
  ghost predicate WellShaped(e: Engine) {
    && AllWellFormed(e.photos) && AllWellFormed(e.allPhotos)
    && UniqueIds(e.photos) && UniqueIds(e.allPhotos) && e.deleteQueue.Unique()
  }

  ghost predicate Consistent(e: Engine) {
    && WellShaped(e)
    && ThreeWay(Ids(e.photos), e.keptIds, e.deleteQueue.Ids(), Ids(e.allPhotos))
    && e.keptCount == |e.keptIds|
  }

  /** Where a photo currently is, if anywhere. */
  ghost function StatusOf(e: Engine, id: string): Option<Status> {
    if id in Ids(e.photos) then Some(Unreviewed)
    else if id in e.keptIds then Some(Kept)
    else if id in e.deleteQueue.Ids() then Some(Queued)
    else None
  }

  /** In a consistent engine a photo of the master list has exactly one status, which the
      published decision reports, and every other id has none. */
  lemma DecisionReportsStatus(e: Engine, id: string)
    requires Consistent(e)
    ensures StatusOf(e, id).Some? <==> id in Ids(e.allPhotos)
    ensures StatusOf(e, id) == Some(Unreviewed) <==> id in Ids(e.allPhotos) && DecisionFor(e, id) == None
    ensures StatusOf(e, id) == Some(Kept) <==> DecisionFor(e, id) == Some(Keep)
    ensures StatusOf(e, id) == Some(Queued) <==> DecisionFor(e, id) == Some(Delete)
  {
  }

  /** Progress accounting: decided plus remaining photos add up to the master list. */
  lemma ReviewedPlusRemaining(e: Engine)
    requires Consistent(e)
    ensures TotalReviewed(e) + |e.photos| == |e.allPhotos|
  {
    UniqueIdsCount(e.photos);
    UniqueIdsCount(e.allPhotos);
    Seqs.KeySetSize(e.deleteQueue.queue, AssetIdOf);
    var a, b, c := Ids(e.photos), e.keptIds, e.deleteQueue.Ids();
    assert |a + b| == |a| + |b|;
    assert |(a + b) + c| == |a + b| + |c|;
  }

  /** A fresh view model is consistent. */
  lemma InitialConsistent()
    ensures Consistent(Initial)
  {
  }

  /** Loading into an engine with no decisions yields a consistent engine. */
  lemma LoadPhotosConsistent(e: Engine, fetched: seq<Photo>)
    requires e.keptIds == {} && e.keptCount == 0 && e.deleteQueue.IsEmpty()
    requires AllWellFormed(fetched) && UniqueIds(fetched)
    ensures Consistent(LoadPhotos(e, fetched))
  {
  }

  /** Reset always ends consistent, whatever the state it started from. */
  lemma ResetConsistent(e: Engine, fetched: seq<Photo>)
    requires AllWellFormed(fetched) && UniqueIds(fetched)
    ensures Consistent(Reset(e, fetched))
  {
  }

  /** Assembles the invariant from its parts. */
  lemma ConsistentOf(r: Engine, stack: set<string>, kept: set<string>, queued: set<string>, all: set<string>)
    requires WellShaped(r) && r.keptCount == |r.keptIds|
    requires Ids(r.photos) == stack && r.keptIds == kept && r.deleteQueue.Ids() == queued && Ids(r.allPhotos) == all
    requires ThreeWay(stack, kept, queued, all)
    ensures Consistent(r)
  {
  }

  /** Moving an id of the master list into the kept part keeps the three-way split. */
  lemma ThreeWayToKept(stack: set<string>, kept: set<string>, queued: set<string>, all: set<string>, id: string)
    requires ThreeWay(stack, kept, queued, all) && id in all
    ensures ThreeWay(stack - {id}, kept + {id}, queued - {id}, all)
  {
  }

  /** Moving a queued id into the kept part keeps the three-way split and leaves the stack alone. */
  lemma ThreeWayQueuedToKept(stack: set<string>, kept: set<string>, queued: set<string>, all: set<string>, id: string)
    requires ThreeWay(stack, kept, queued, all) && id in queued
    ensures ThreeWay(stack, kept + {id}, queued - {id}, all)
  {
  }

  /** Moving a stacked id into the queued part keeps the three-way split. */
  lemma ThreeWayToQueued(stack: set<string>, kept: set<string>, queued: set<string>, all: set<string>, id: string)
    requires ThreeWay(stack, kept, queued, all) && id in stack
    ensures ThreeWay(stack - {id}, kept - {id}, queued + {id}, all)
  {
  }

  /** Moving an id of the master list back onto the stack keeps the three-way split. */
  lemma ThreeWayToStack(stack: set<string>, kept: set<string>, queued: set<string>, all: set<string>, id: string)
    requires ThreeWay(stack, kept, queued, all) && id in all
    ensures ThreeWay(stack + {id}, kept - {id}, queued - {id}, all)
  {
  }

  /** Moving a queued id back onto the stack keeps the three-way split and leaves the kept part alone. */
  lemma ThreeWayQueuedToStack(stack: set<string>, kept: set<string>, queued: set<string>, all: set<string>, id: string)
    requires ThreeWay(stack, kept, queued, all) && id in queued
    ensures ThreeWay(stack + {id}, kept, queued - {id}, all)
  {
  }

  /** Dropping every queued id everywhere keeps the three-way split, with an empty queue. */
  lemma ThreeWayDropQueued(stack: set<string>, kept: set<string>, queued: set<string>, all: set<string>)
    requires ThreeWay(stack, kept, queued, all)
    ensures ThreeWay(stack - queued, kept - queued, {}, all - queued)
  {
  }

  /** Keeping any photo of the master list preserves the partition. */
  lemma KeepPreserves(e: Engine, p: Photo)
    requires Consistent(e) && p.id in Ids(e.allPhotos)
    ensures Consistent(KeepPhoto(e, p))
    ensures StatusOf(KeepPhoto(e, p), p.id) == Some(Kept)
  {
    var r := KeepPhoto(e, p);
    WithoutIdsKeepsUnique(e.photos, {p.id});
    Seqs.FilterKeepsUnique(e.deleteQueue.queue, (a: Asset) => a.localIdentifier != p.id, AssetIdOf);
    assert WellShaped(r);
    ThreeWayToKept(Ids(e.photos), e.keptIds, e.deleteQueue.Ids(), Ids(e.allPhotos), p.id);
    ConsistentOf(r, Ids(e.photos) - {p.id}, e.keptIds + {p.id}, e.deleteQueue.Ids() - {p.id}, Ids(e.allPhotos));
  }

  /** Marking a stacked photo preserves the partition; the kept counter needs no refresh
      because a stacked photo is never in the kept set. */
  lemma MarkPreserves(e: Engine, p: Photo)
    requires Consistent(e) && p in e.photos
    ensures Consistent(MarkForDeletion(e, p))
    ensures StatusOf(MarkForDeletion(e, p), p.id) == Some(Queued)
  {
    var r := MarkForDeletion(e, p);
    assert p.id in Ids(e.photos) && WellFormed(p);
    MarkShape(e, p);
    assert r.deleteQueue.Ids() == e.deleteQueue.Ids() + {p.id};
    ThreeWayToQueued(Ids(e.photos), e.keptIds, e.deleteQueue.Ids(), Ids(e.allPhotos), p.id);
    ConsistentOf(r, Ids(e.photos) - {p.id}, e.keptIds - {p.id}, e.deleteQueue.Ids() + {p.id}, Ids(e.allPhotos));
  }

  lemma MarkShape(e: Engine, p: Photo)
    requires WellShaped(e) && p in e.photos && p.id !in e.deleteQueue.Ids()
    ensures WellShaped(MarkForDeletion(e, p))
    ensures MarkForDeletion(e, p).deleteQueue.queue == e.deleteQueue.queue + [p.asset]
  {
    var r := MarkForDeletion(e, p);
    WithoutIdsKeepsUnique(e.photos, {p.id});
    assert r.deleteQueue.queue == e.deleteQueue.queue + [p.asset];
    Seqs.UniqueBySnoc(e.deleteQueue.queue, p.asset, AssetIdOf);
  }

  /** Undoing the last deletion preserves the partition and makes that photo unreviewed. */
  lemma UndoPreserves(e: Engine)
    requires Consistent(e)
    ensures Consistent(UndoLastDelete(e))
    ensures !e.deleteQueue.IsEmpty() ==>
              StatusOf(UndoLastDelete(e), e.deleteQueue.queue[PhotosToDeleteCount(e) - 1].localIdentifier)
                == Some(Unreviewed)
  {
    if !e.deleteQueue.IsEmpty() {
      UndoNonEmptyPreserves(e);
    }
  }

  lemma UndoNonEmptyPreserves(e: Engine)
    requires Consistent(e) && !e.deleteQueue.IsEmpty()
    ensures Consistent(UndoLastDelete(e))
    ensures e.deleteQueue.queue[PhotosToDeleteCount(e) - 1].localIdentifier in Ids(UndoLastDelete(e).photos)
  {
    var pop := e.deleteQueue.RemoveLast();
    var last := pop.last.value;
    assert UndoLastDelete(e) == e.(deleteQueue := pop.rest, photos := [FromAsset(last)] + e.photos);
    PopPushPreserves(e, pop.rest, last);
  }

  /** Moving the tail of the queue onto the stack preserves the partition. */
  lemma PopPushPreserves(e: Engine, rest: DeleteQueue, last: Asset)
    requires Consistent(e) && rest.queue + [last] == e.deleteQueue.queue
    ensures Consistent(e.(deleteQueue := rest, photos := [FromAsset(last)] + e.photos))
    ensures last.localIdentifier in Ids([FromAsset(last)] + e.photos)
  {
    PopPushShape(e, rest, last);
    ThreeWayQueuedToStack(Ids(e.photos), e.keptIds, e.deleteQueue.Ids(), Ids(e.allPhotos), last.localIdentifier);
  }

  /** The shape half of a pop-and-push: the popped id leaves the queue and joins the stack. */
  lemma PopPushShape(e: Engine, rest: DeleteQueue, last: Asset)
    requires WellShaped(e) && Ids(e.photos) !! e.deleteQueue.Ids()
    requires rest.queue + [last] == e.deleteQueue.queue
    ensures var r := e.(deleteQueue := rest, photos := [FromAsset(last)] + e.photos);
            && WellShaped(r)
            && last.localIdentifier in e.deleteQueue.Ids()
            && Ids(r.photos) == Ids(e.photos) + {last.localIdentifier}
            && rest.Ids() == e.deleteQueue.Ids() - {last.localIdentifier}
  {
    assert e.deleteQueue.RemoveLast() == Pop(Some(last), rest);
    PopShape(e.deleteQueue);
    PushShape(e.photos, FromAsset(last), e.deleteQueue.Ids());
  }

  /** The queue left by a pop keeps unique ids and loses exactly the popped one. */
  lemma PopShape(q: DeleteQueue)
    requires q.Unique() && !q.IsEmpty()
    ensures var id := q.queue[|q.queue| - 1].localIdentifier;
            && q.RemoveLast().rest.Unique()
            && id in q.Ids()
            && q.RemoveLast().rest.Ids() == q.Ids() - {id}
  {
    UniquePopLeavesIdAbsent(q);
  }

  /** Pushing a well-formed photo whose id is new keeps the stack well shaped. */
  lemma PushShape(s: seq<Photo>, x: Photo, avoid: set<string>)
    requires AllWellFormed(s) && UniqueIds(s) && WellFormed(x)
    requires x.id in avoid && Ids(s) !! avoid
    ensures AllWellFormed([x] + s) && UniqueIds([x] + s)
    ensures Ids([x] + s) == Ids(s) + {x.id}
  {
    UniqueIdsCons(x, s);
    Seqs.KeySetCons(x, s, IdOf);
  }

  /** Restoring a queued photo preserves the partition and makes it kept. */
  lemma RestorePreserves(e: Engine, p: Photo)
    requires Consistent(e) && p.id in e.deleteQueue.Ids()
    ensures Consistent(RestorePhoto(e, p))
    ensures StatusOf(RestorePhoto(e, p), p.id) == Some(Kept)
  {
    RestoreShape(e, p);
    ThreeWayQueuedToKept(Ids(e.photos), e.keptIds, e.deleteQueue.Ids(), Ids(e.allPhotos), p.id);
  }

  /** The shape half of a restore: only the queue changes, and it keeps unique ids. */
  lemma RestoreShape(e: Engine, p: Photo)
    requires WellShaped(e)
    ensures WellShaped(RestorePhoto(e, p))
  {
    Seqs.FilterKeepsUnique(e.deleteQueue.queue, (a: Asset) => a.localIdentifier != p.id, AssetIdOf);
  }

  /** Rotating a sequence keeps its ids unique. */
  lemma RotationKeepsUnique(r: seq<Photo>, s: seq<Photo>, i: nat)
    requires RotatedAt(r, s, i) && UniqueIds(s)
    ensures UniqueIds(r)
  {
    forall j, k | 0 <= j < |r| && 0 <= k < |r| && j != k
      ensures IdOf(r[j]) != IdOf(r[k])
    {
      assert r[j] == s[Cyclic(i + j, |s|)] && r[k] == s[Cyclic(i + k, |s|)];
    }
  }

  /** Sequences with the same multiset hold the same photos. */
  lemma SameMultisetSameIds(r: seq<Photo>, s: seq<Photo>)
    requires multiset(r) == multiset(s)
    ensures (forall q :: q in r <==> q in s) && Ids(r) == Ids(s)
  {
    forall q
      ensures q in r <==> q in s
    {
      assert q in r <==> q in multiset(r);
      assert q in s <==> q in multiset(s);
    }
  }

  /** Bringing any photo of the master list to the front preserves the partition and leaves
      that photo unreviewed, on top. */
  lemma MoveToFrontPreserves(e: Engine, p: Photo)
    requires Consistent(e) && p in e.allPhotos
    ensures Consistent(MoveToFront(e, p))
    ensures StatusOf(MoveToFront(e, p), p.id) == Some(Unreviewed)
  {
    var r := MoveToFront(e, p);
    assert r.photos[0] in r.photos;
    match IndexOfId(e.photos, p.id)
    case Some(i) =>
      RotationKeepsUnique(r.photos, e.photos, i);
      SameMultisetSameIds(r.photos, e.photos);
      assert WellShaped(r);
      ConsistentOf(r, Ids(e.photos), e.keptIds, e.deleteQueue.Ids(), Ids(e.allPhotos));
    case None =>
      PullToFrontShape(e, p);
      ThreeWayToStack(Ids(e.photos), e.keptIds, e.deleteQueue.Ids(), Ids(e.allPhotos), p.id);
      ConsistentOf(r, Ids(e.photos) + {p.id}, e.keptIds - {p.id}, e.deleteQueue.Ids() - {p.id}, Ids(e.allPhotos));
  }

  /** Pulling an unstacked photo of the master list onto the stack keeps every list well shaped. */
  lemma PullToFrontShape(e: Engine, p: Photo)
    requires WellShaped(e) && p in e.allPhotos && p.id !in Ids(e.photos)
    ensures WellShaped(MoveToFront(e, p))
    ensures Ids(MoveToFront(e, p).photos) == Ids(e.photos) + {p.id}
    ensures p.id in Ids(e.allPhotos)
  {
    var r := MoveToFront(e, p);
    assert r.photos == [p] + e.photos;
    UniqueIdsCons(p, e.photos);
    Seqs.KeySetCons(p, e.photos, IdOf);
    Seqs.FilterKeepsUnique(e.deleteQueue.queue, (a: Asset) => a.localIdentifier != p.id, AssetIdOf);
    Seqs.KeySetCovers(e.allPhotos, IdOf);
  }

  /** The batch commit preserves the partition whatever the store answers. */
  lemma ExecuteDeletesPreserves(e: Engine, outcome: Outcome<string>)
    requires Consistent(e)
    ensures Consistent(ExecuteDeletes(e, outcome))
  {
    if !e.deleteQueue.IsEmpty() && outcome.Pass? {
      var r := ExecuteDeletes(e, outcome);
      var deleted := e.deleteQueue.Ids();
      WithoutIdsKeepsUnique(e.photos, deleted);
      WithoutIdsKeepsUnique(e.allPhotos, deleted);
      assert WellShaped(r);
      ThreeWayDropQueued(Ids(e.photos), e.keptIds, deleted, Ids(e.allPhotos));
      ConsistentOf(r, Ids(e.photos) - deleted, e.keptIds - deleted, {}, Ids(e.allPhotos) - deleted);
    }
  }

  /** Image loads touch only the cache. */
  lemma LoadsPreserve(e: Engine, p: Photo, loader: Photo -> Option<Image>)
    requires Consistent(e)
    ensures Consistent(LoadImage(e, p, loader).engine)
    ensures Consistent(LoadThumbnail(e, p, loader).engine)
  {
  }
}

=== FILE: seqs.dfy ===
/** Order-preserving filtering of sequences: Swift's `removeAll(where:)` and `filter`. */
module Seqs {

  /** The elements of `s` satisfying `keep`, in their original order. */
  function Filter<T(!new)>(s: seq<T>, keep: T -> bool): (r: seq<T>)
    ensures |r| <= |s|
    ensures forall x :: x in r <==> x in s && keep(x)
    ensures forall i :: 0 <= i < |r| ==> keep(r[i])
    decreases |s|
  {
    if s == [] then []
    else if keep(s[0]) then [s[0]] + Filter(s[1..], keep)
    else Filter(s[1..], keep)
  }

  /** Filtering distributes over concatenation, so the survivors keep their relative order. */
  lemma {:induction false} FilterConcat<T(!new)>(a: seq<T>, b: seq<T>, keep: T -> bool)
    ensures Filter(a + b, keep) == Filter(a, keep) + Filter(b, keep)
    decreases |a|
  {
    if a == [] {
      assert a + b == b;
    } else {
      assert (a + b)[0] == a[0];
      assert (a + b)[1..] == a[1..] + b;
      FilterConcat(a[1..], b, keep);
    }
  }

  /** Filtering removes nothing when every element is kept. */
  lemma {:induction false} FilterKeepsAll<T(!new)>(s: seq<T>, keep: T -> bool)
    requires forall i :: 0 <= i < |s| ==> keep(s[i])
    ensures Filter(s, keep) == s
    decreases |s|
  {
    if s != [] {
      FilterKeepsAll(s[1..], keep);
    }
  }

  /** Filtering drops everything when no element is kept. */
  lemma {:induction false} FilterDropsAll<T(!new)>(s: seq<T>, keep: T -> bool)
    requires forall i :: 0 <= i < |s| ==> !keep(s[i])
    ensures Filter(s, keep) == []
    decreases |s|
  {
    if s != [] {
      FilterDropsAll(s[1..], keep);
    }
  }

  /** Filtering shortens the sequence as soon as one element is dropped. */
  lemma {:induction false} FilterDropsOne<T(!new)>(s: seq<T>, keep: T -> bool, i: nat)
    requires i < |s| && !keep(s[i])
    ensures |Filter(s, keep)| < |s|
    decreases |s|
  {
    if i > 0 {
      FilterDropsOne(s[1..], keep, i - 1);
    }
  }

  /** The set of keys of the elements of `s`. */
  function KeySet<T(==), K>(s: seq<T>, key: T -> K): set<K> {
    set x | x in s :: key(x)
  }

  /** The key of every position is in the key set. */
  lemma KeySetCovers<T, K>(s: seq<T>, key: T -> K)
    ensures forall i :: 0 <= i < |s| ==> key(s[i]) in KeySet(s, key)
  {
    forall i | 0 <= i < |s|
      ensures key(s[i]) in KeySet(s, key)
    {
      assert s[i] in s;
    }
  }

  /** Putting an element in front adds exactly its key. */
  lemma KeySetCons<T, K>(x: T, t: seq<T>, key: T -> K)
    ensures KeySet([x] + t, key) == {key(x)} + KeySet(t, key)
  {
    var l := KeySet([x] + t, key);
    forall k | k in l
      ensures k in {key(x)} + KeySet(t, key)
    {
      var y :| y in [x] + t && key(y) == k;
      if y != x {
        assert y in t;
      }
    }
    assert ([x] + t)[0] == x;
    forall k | k in KeySet(t, key)
      ensures k in l
    {
      var y :| y in t && key(y) == k;
      assert y in [x] + t;
    }
  }

  /** The keys of a concatenation are the keys of its parts. */
  lemma KeySetConcat<T, K>(a: seq<T>, b: seq<T>, key: T -> K)
    ensures KeySet(a + b, key) == KeySet(a, key) + KeySet(b, key)
  {
    var l, r := KeySet(a + b, key), KeySet(a, key) + KeySet(b, key);
    forall k | k in l
      ensures k in r
    {
      var i :| 0 <= i < |a + b| && key((a + b)[i]) == k;
      if i < |a| {
        assert (a + b)[i] == a[i];
      } else {
        assert (a + b)[i] == b[i - |a|];
      }
    }
    forall k | k in r
      ensures k in l
    {
      if k in KeySet(a, key) {
        var i :| 0 <= i < |a| && key(a[i]) == k;
        assert (a + b)[i] == a[i];
      } else {
        var i :| 0 <= i < |b| && key(b[i]) == k;
        assert (a + b)[i + |a|] == b[i];
      }
    }
  }

  /** No two positions of `s` carry the same key. */
  ghost predicate UniqueBy<T, K>(s: seq<T>, key: T -> K) {
    forall i, j :: 0 <= i < |s| && 0 <= j < |s| && i != j ==> key(s[i]) != key(s[j])
  }

  /** A sequence headed by `x` has unique keys exactly when its tail does and avoids `key(x)`. */
  lemma UniqueByCons<T, K>(x: T, t: seq<T>, key: T -> K)
    ensures UniqueBy([x] + t, key) <==> key(x) !in KeySet(t, key) && UniqueBy(t, key)
  {
    var s := [x] + t;
    if UniqueBy(s, key) {
      forall i, j | 0 <= i < |t| && 0 <= j < |t| && i != j
        ensures key(t[i]) != key(t[j])
      {
        assert s[i + 1] == t[i] && s[j + 1] == t[j];
      }
      forall y | y in t
        ensures key(y) != key(x)
      {
        var i :| 0 <= i < |t| && t[i] == y;
        assert s[i + 1] == y && s[0] == x;
        assert key(s[0]) != key(s[i + 1]);
      }
    }
    if key(x) !in KeySet(t, key) && UniqueBy(t, key) {
      forall i, j | 0 <= i < |s| && 0 <= j < |s| && i != j
        ensures key(s[i]) != key(s[j])
      {
        if i > 0 && j > 0 {
          assert s[i] == t[i - 1] && s[j] == t[j - 1];
        } else if i == 0 {
          assert s[j] == t[j - 1] && s[j] in t;
        } else {
          assert s[i] == t[i - 1] && s[i] in t;
        }
      }
    }
  }

  /** Appending an element whose key is new keeps the keys unique. */
  lemma UniqueBySnoc<T, K>(t: seq<T>, x: T, key: T -> K)
    requires UniqueBy(t, key) && key(x) !in KeySet(t, key)
    ensures UniqueBy(t + [x], key)
  {
    var s := t + [x];
    forall i, j | 0 <= i < |s| && 0 <= j < |s| && i != j
      ensures key(s[i]) != key(s[j])
    {
      if i < |t| && j < |t| {
        assert s[i] == t[i] && s[j] == t[j];
      } else if i < |t| {
        assert s[i] == t[i] && s[i] in t;
      } else {
        assert s[j] == t[j] && s[j] in t;
      }
    }
  }

  /** Filtering never introduces a repeated key. */
  lemma {:induction false} FilterKeepsUnique<T(!new), K>(s: seq<T>, keep: T -> bool, key: T -> K)
    requires UniqueBy(s, key)
    ensures UniqueBy(Filter(s, keep), key)
    decreases |s|
  {
    if s != [] {
      assert s == [s[0]] + s[1..];
      UniqueByCons(s[0], s[1..], key);
      FilterKeepsUnique(s[1..], keep, key);
      var rest := Filter(s[1..], keep);
      if keep(s[0]) {
        assert KeySet(rest, key) <= KeySet(s[1..], key);
        UniqueByCons(s[0], rest, key);
      }
    }
  }

  /** There are never more keys than elements, and exactly as many when the keys are unique. */
  lemma {:induction false} KeySetSize<T, K>(s: seq<T>, key: T -> K)
    ensures |KeySet(s, key)| <= |s|
    ensures UniqueBy(s, key) <==> |KeySet(s, key)| == |s|
    decreases |s|
  {
    if s != [] {
      assert s == [s[0]] + s[1..];
      UniqueByCons(s[0], s[1..], key);
      KeySetSize(s[1..], key);
      KeySetCons(s[0], s[1..], key);
    }
  }
}

=== FILE: swipe_action.dfy ===
/** The two decisions a swipe can express (SwipeAction.swift) and how each is presented. */
module SwipeActions {

  datatype SwipeAction = Keep | Delete {

    /** The tint of the decision: green for keep, red for delete. */
    function Color(): (c: string)
      ensures c == "green" <==> Keep?
      ensures c == "red" <==> Delete?
    {
      match this
      case Keep => "green"
      case Delete => "red"
    }

    /** The SF Symbol of the decision: a heart for keep, a bin for delete. */
    function Icon(): (i: string)
      ensures i == "heart.fill" <==> Keep?
      ensures i == "trash.fill" <==> Delete?
    {
      match this
      case Keep => "heart.fill"
      case Delete => "trash.fill"
    }
  }

  /** The two decisions can always be told apart by colour and by icon. */
  lemma PresentationDistinguishes(a: SwipeAction, b: SwipeAction)
    ensures a.Color() == b.Color() <==> a == b
    ensures a.Icon() == b.Icon() <==> a == b
  {
  }
}

=== FILE: wrappers.dfy ===
/** Failure-compatible wrappers standing in for Swift optionals and thrown errors. */
module Wrappers {

  /** Swift's `T?`: a value or nil. */
  datatype Option<+T> = None | Some(value: T)

  /** The outcome of a call that may throw: `Fail` carries the error's description. */
  datatype Outcome<+E> = Pass | Fail(error: E)
}
